=== FILE: README.md ===
# Tutoring platform front end: selection rules

This project models, in Dafny, the pure selection rules of the tutoring
platform's web front end. It does not model the React components or their
fetches. The fetched data become inputs, and each rule becomes a pure
function over immutable datatypes, with contracts and lemmas. The rules are:

- the tutor directory search: the name and subject filters, the four sort
  orders and the user map behind the display-name fallback (module
  `TutorSearch`, file `tutor_list.dfy`);
- the "Recent Messages" card of the dashboards: unread counts, the first
  three chats, the counterparty, the last message and the initials (module
  `ChatPreview`, file `dashboard_chat_preview.dfy`);
- the chats page: the conversations object turned into a list, display names,
  initials, highlights and the empty state (module `ChatsPage`, file
  `chat_page.dfy`);
- the messages page: the send guard, the send button, the Enter key, the
  selected conversation's messages and the own/incoming test (module
  `MessagesPage`, file `messages_page.dfy`);
- the dashboard: the teacher-profile completeness check, the onboarding
  redirect, the role branch and the count defaults (module `Dashboard`, file
  `dashboard.dfy`);
- the tutor dashboard as a small state machine: effects, request completions
  and the view chosen from the state (module `TutorDashboard`, file
  `tutor_dashboard.dfy`);
- the teacher records and the two pure rules of the teacher API client: the
  find-or-first fallback and the profile-update payload (module `Teachers`,
  file `teachers.dfy`).

Every value in the model is immutable. So the source's defensive copies hold
by construction: the search filters `[...allTutors]`, and the profile update
copies `{ ...data }`. Neither operation can change its input.

Shared helpers:

- `Base` holds `Option` and JavaScript truthiness with the `||` fallbacks on
  strings and numbers.
- `Text` holds `trim` over the ECMA-262 white-space set, ASCII `toLowerCase`
  and `toUpperCase`, `includes`, `split(" ")` and `join`, the
  `split(" ").map(n => n[0]).join("")` initials, and decimal rendering and
  `parseInt` of naturals.
- `Seqs` holds `Array.prototype.filter`.

## Model

| member | source | states |
|---|---|---|
| TutorSearch.BuildUserMapKeys | components/tutor-list.tsx:64-68 | The user map's keys are exactly the fetched users' ids. |
| TutorSearch.BuildUserMapLastWins | components/tutor-list.tsx:64-68 | Each id maps to the last fetched user carrying it: a later user overwrites an earlier one. |
| TutorSearch.UserMapAfterLoad | components/tutor-list.tsx:54-75 | The map stays empty unless some tutor lacks a username but names a user and the user fetch succeeds; in that case it is the map built from the fetched users. |
| TutorSearch.DisplayName | components/tutor-list.tsx:97-99 | The searched name is never empty and is the tutor's own username whenever that is non-empty. |
| TutorSearch.DisplayNameFallback | components/tutor-list.tsx:97-99 | Without a username of its own, a tutor is searched by its mapped user's non-empty username. Otherwise it is searched by "Teacher <id>": when it names no user, when that user is not in the map, or when that user's username is empty. |
| TutorSearch.Term | components/tutor-list.tsx:94-95 | A name or subject filter is inactive exactly when absent, empty or blank; an active term is the trimmed, lower-cased text and is never empty. |
| TutorSearch.ByName | components/tutor-list.tsx:94-104 | An inactive name term keeps the list as is; an active one keeps exactly the tutors whose display name matches, as a sub-multiset of the list. |
| TutorSearch.BySubject | components/tutor-list.tsx:107-117 | An inactive subject term keeps the list as is; an active one keeps exactly the tutors with a matching subject, as a sub-multiset of the list. |
| TutorSearch.Filtered | components/tutor-list.tsx:91-117 | The two filters in a row equal one `filter` by "passes both active filters". So the passing tutors keep their input order, and each appears as many times as in the tutor list. A tutor that fails does not appear. |
| TutorSearch.FiltersComposeToOnePass | components/tutor-list.tsx:94-116 | The name filter followed by the subject filter keeps the same tutors, in the same order, as one filter by the conjunction of the active tests. |
| TutorSearch.NameFilterIff | components/tutor-list.tsx:94-102 | With a non-blank name term, a tutor passes exactly when the trimmed, lower-cased term occurs at some position of its lower-cased display name. |
| TutorSearch.SubjectFilterIff | components/tutor-list.tsx:107-115 | A tutor with missing or empty subjects never passes a subject filter; otherwise it passes exactly when some subject name, lower-cased, contains the term. |
| TutorSearch.ParseSortBy | components/tutor-list.tsx:120-136 | Only "rating-high", "price-low", "price-high" and "experience" reorder the list; every other sort value, "recommended" included, leaves it alone. |
| TutorSearch.InsertMembers | components/tutor-list.tsx:120-136 | The elements after an insertion are the inserted tutor and the list's elements. |
| TutorSearch.InsertPermutes | components/tutor-list.tsx:120-136 | Inserting a tutor into a list adds exactly that tutor to its multiset. |
| TutorSearch.InsertKeepsSorted | components/tutor-list.tsx:120-136 | Inserting into a list sorted under the comparator keeps it sorted. |
| TutorSearch.InsertSameKey | components/tutor-list.tsx:120-136 | Inserting a tutor puts it in front of every tutor with its own sort value and leaves the order within the other groups alone. |
| TutorSearch.StableSortSortsAndPermutes | components/tutor-list.tsx:120-136 | The sort returns a permutation of its input that the comparator orders. |
| TutorSearch.StableSortIsStable | components/tutor-list.tsx:120-136 | The sort is stable: the tutors sharing a sort value keep their input order. |
| TutorSearch.SameKeyMembers | components/tutor-list.tsx:120-136 | A tutor is in the group of a sort value exactly when it is in the list and has that value. |
| TutorSearch.StableSortedIsUnique | components/tutor-list.tsx:120-136 | Two sorted lists that agree on the order within every group of equal sort values are the same list, so every stable sort with this comparator gives the same result. |
| TutorSearch.Search | components/tutor-list.tsx:88-140 | Every passing tutor is shown as many times as it appears in the fetched list, and no other tutor is shown. An unrecognised sort shows one `filter` of the fetched list by the active tests, in the fetched order. A recognised sort gives a sorted permutation of that list that keeps every group of equal keys in its original order. |
| TutorSearch.SearchIsSortedBy | components/tutor-list.tsx:119-138 | Each of the four recognised sort choices leaves the shown list sorted by its comparator. |
| TutorSearch.SortedMeansKeyOrder | components/tutor-list.tsx:120-136 | A list the comparator orders has non-decreasing sort values under "price-low" and non-increasing ones under the other three orders. |
| TutorSearch.SearchByRating | components/tutor-list.tsx:120-121 | Under "rating-high", ratings never increase down the list, a missing rating counting as 0. |
| TutorSearch.SearchByPrice | components/tutor-list.tsx:122-133 | Under "price-low" the first subject's rate never decreases down the list; under "price-high" it never increases; no subjects count as 0. |
| TutorSearch.SearchByExperience | components/tutor-list.tsx:134-135 | Under "experience", years of experience never increase down the list, missing counting as 0. |
| TutorSearch.NoTermsKeepsAll | components/tutor-list.tsx:91-117 | With no active term and a sort value that does not reorder, every tutor is shown in the fetched order. |
| Seqs.Filter | components/tutor-list.tsx:96 | `filter` never returns more elements than its input had. |
| Seqs.FilterMembers | components/tutor-list.tsx:96 | `filter` keeps exactly the elements that pass. |
| Seqs.FilterSubMultiset | components/tutor-list.tsx:96 | `filter` never duplicates an element: its result is a sub-multiset of its input. |
| Seqs.FilterCount | components/tutor-list.tsx:96 | `filter` keeps every copy of a passing element and no copy of any other. |
| Seqs.FilterExt | components/tutor-list.tsx:96 | Two callbacks that agree on every element filter alike. |
| Seqs.FilterFilter | components/tutor-list.tsx:94-116 | Filtering twice in a row is filtering once by the conjunction of the two callbacks. |
| Seqs.FilterAppend | components/dashboard-chat-preview.tsx:23 | Filtering a concatenation concatenates the filtered parts. |
| ChatPreview.UnreadCountAppend | components/dashboard-chat-preview.tsx:23-24 | Unread counts add up over concatenated message lists. |
| ChatPreview.UnreadCountMeaning | components/dashboard-chat-preview.tsx:23 | The unread count is zero exactly when no message is both from someone else and unread; appending one of the user's own messages never changes it. |
| ChatPreview.ReduceIsSum | components/dashboard-chat-preview.tsx:22-25 | The `reduce` over the chats from an accumulator equals the accumulator plus the sum of the per-chat counts. |
| ChatPreview.SumUnreadAppend | components/dashboard-chat-preview.tsx:22-25 | The per-chat sum over concatenated chat lists is the sum of the two parts' sums. |
| ChatPreview.HeaderTotalIsSumOfRows | components/dashboard-chat-preview.tsx:22-25 | The header total is the sum of the per-chat counts over all chats, and it is at least the sum over the three listed chats. |
| ChatPreview.HeaderBadgeIffSomeUnread | components/dashboard-chat-preview.tsx:22-41 | The header badge shows exactly when some chat, listed or not, holds a message from someone else that is unread. |
| ChatPreview.RecentChats | components/dashboard-chat-preview.tsx:19 | The listed chats are the prefix of length min(3, n) of the chat list. |
| ChatPreview.Counterparty | components/dashboard-chat-preview.tsx:49 | The counterparty is the first participant whose id differs from the user's, and there is none exactly when every participant is the user. |
| ChatPreview.LastMessage | components/dashboard-chat-preview.tsx:52 | The last message is the final element of the message list, and there is none exactly when the list is empty. |
| ChatPreview.RowFor | components/dashboard-chat-preview.tsx:48-94 | A chat without a counterparty renders nothing. One with a counterparty but no messages throws. Otherwise the row links to the chat's id and shows the counterparty's name and initials, the last message's text and timestamp and the chat's unread count, with the badge and the highlight shown exactly when some message from someone else is unread. |
| ChatPreview.Preview | components/dashboard-chat-preview.tsx:12-53 | Nothing renders exactly when there is no user. With a user, the card fails exactly when a listed row throws, and is shown exactly when no listed row throws. The shown card has the total over all chats, the header badge exactly when that total is positive, one row per listed chat, and the empty state exactly when there are no chats. |
| ChatPreview.NoUserIgnoresChats | components/dashboard-chat-preview.tsx:12-13 | Without a user the card renders nothing, whatever the chats. |
| Text.InitialsAreWordStarts | components/dashboard-chat-preview.tsx:72-75 | The initials are the first character of each space-separated word of the name, in order, and are never longer than the name. |
| Text.JoinSplit | components/dashboard-chat-preview.tsx:72-75 | Joining the pieces of `split(" ")` with the same separator gives back the name. |
| Text.ContainsIffOccurs | components/tutor-list.tsx:101 | `includes` holds exactly when the needle occurs at some position of the text. |
| Text.BlankIffAllSpace | components/tutor-list.tsx:94 | A string trims to the empty string exactly when each of its characters is white space. |
| Text.TrimIsSlice | components/tutor-list.tsx:95 | The trimmed text is a contiguous slice of the input. |
| Text.TrimIsIdempotent | components/tutor-list.tsx:95 | Trimming an already trimmed text changes nothing. |
| Text.LowerIsIdempotent | components/tutor-list.tsx:95 | A lower-cased string holds no upper-case letter, and lower-casing it again changes nothing. |
| Text.ParseIntOfNatToString | app/chat/page.tsx:31-32 | Reading back the decimal rendering of a natural number gives that number. |
| Text.DigitsValueOfNatToString | app/chat/page.tsx:31-32 | The digits of a natural number's rendering have that number as their value. |
| ChatsPage.MinExists | app/chat/page.tsx:31 | Every non-empty set of integer keys has a least one; it is the next key listed. |
| ChatsPage.KeyId | app/chat/page.tsx:32 | `parseInt` of the string an integer key is listed under gives back the key. |
| ChatsPage.ListNextKey | app/chat/page.tsx:31-34 | Listing the least remaining key keeps the rows ascending, each row's conversation equal to its key's, and every listed key gone from those still to come. |
| ChatsPage.ConversationsList | app/chat/page.tsx:31-34 | Each entry of the conversations object becomes exactly one row, in ascending id order. Each row's id is its key as parsed back, and its conversation is carried over unchanged. |
| ChatsPage.DisplayNameRule | app/chat/page.tsx:105-117 | With a last message, the shown name is the other side's username, identically for both roles; without one it is "Tutor <id>" for a student and "Student <id>" otherwise. |
| ChatsPage.DisplayInitial | app/chat/page.tsx:119 | The initial is one character: the upper-cased first character of the name, or "T" for a student and "S" otherwise when the name is empty. |
| ChatsPage.RowFor | app/chat/page.tsx:104-164 | A row shows the conversation's display name, its upper-cased first character (or "T"/"S"), and the "Tutor" badge for a student or "Student" otherwise. A row is highlighted and shows a badge exactly when its unread count is positive, the badge showing that count. Without a last message the row shows "Start a conversation" and "No messages"; with one it shows the message's content and the date it was sent. |
| ChatsPage.Page | app/chat/page.tsx:37-183 | Without a user only the log-in prompt shows. With one, every conversation has a row and the count badge is the number of conversations. The empty state shows exactly when there are none. Its title and its hint both depend on whether a search term was typed: "Try adjusting your search terms" with one, "Start connecting with your tutors and students" without. |
| ChatsPage.SearchTermDoesNotFilter | app/chat/page.tsx:36-37 | Any two search terms give the same rows, and the count badge is the number of conversations. |
| MessagesPage.UserId | app/messages/page.tsx:17-21 | The signed-in user's id, or "user-1" without one. |
| MessagesPage.SendDisabled | app/messages/page.tsx:452 | The send button is disabled exactly when every character of the input is white space. |
| MessagesPage.HandleSend | app/messages/page.tsx:236-244 | A send with blank text or no truthy selected conversation changes nothing; any other send only empties the input. |
| MessagesPage.KeyDown | app/messages/page.tsx:437-442 | Enter without Shift sends; Shift+Enter and every other key leave the state unchanged. |
| MessagesPage.SendClearsOnlyText | app/messages/page.tsx:236-244 | With sendable text and a conversation selected, Enter empties the input and leaves the conversations, messages and selection unchanged; Shift+Enter changes nothing. |
| MessagesPage.SendGuardMatchesButton | app/messages/page.tsx:237 | The handler ignores any text that disables the button; an enabled button with a selected conversation sends; and every call either leaves the state unchanged or empties the input. |
| MessagesPage.SelectedMessages | app/messages/page.tsx:233 | With no truthy selection the pane lists no messages; otherwise it lists the table's entry for the selected id, which is undefined when the table has none. |
| MessagesPage.PaneFor | app/messages/page.tsx:233-466 | Without a truthy selection the pane shows the "Select a conversation" prompt. A selected id with no table entry makes the pane throw, because `.map` is called on `undefined`. Otherwise the pane shows one view per message of the selected conversation, in order. |
| MessagesPage.SelectShowsConversation | app/messages/page.tsx:233-373 | Clicking a listed conversation with a non-empty id highlights exactly the entries with that id. The pane then shows that conversation's thread when the table has an entry for it. Without one, the selected messages are `undefined` and the pane throws. |
| MessagesPage.AvatarGuardNeverHolds | app/messages/page.tsx:378 | The guard as written compares a boolean with a string under `===`, so it is false for every message and user. |
| MessagesPage.AvatarGuardMissesIncoming | app/messages/page.tsx:378 | The default conversation's tutor message, seen by the fallback user, is incoming, yet the guard as written draws no avatar for it. |
| MessagesPage.IncomingAvatarIffNotOwn | app/messages/page.tsx:376-378 | The corrected guard holds exactly for the messages that are not the user's own. |
| MessagesPage.ViewMessage | app/messages/page.tsx:376-393 | A message is right-aligned and primary-styled exactly when the user sent it. The avatar follows the guard as written, so no message ever carries it. |
| MessagesPage.ViewMessageIntended | app/messages/page.tsx:376-393 | With the corrected guard, a message carries the sender's avatar exactly when it is not right-aligned; the rest of the view is unchanged. |
| MessagesPage.EntryFor | app/messages/page.tsx:275-312 | A list entry shows the participant's name and initials, is highlighted exactly when it is the selected conversation, and shows a badge with the count exactly when the unread count is positive. |
| MessagesPage.Select | app/messages/page.tsx:281 | Clicking an entry selects that conversation and changes nothing else. |
| Dashboard.CheckTeacherProfile | app/dashboard/page.tsx:22-50 | There is no check without a user or for a non-teacher. A module-load failure redirects without the toast. Otherwise a teacher is redirected with the toast exactly when the profile read is incomplete, and stays exactly when it is complete. |
| Dashboard.OnboardingIff | app/dashboard/page.tsx:25-44 | The onboarding redirect happens exactly for a teacher whose module load fails or whose profile lacks subjects or a truthy teaching philosophy. |
| Dashboard.DevelopmentProfileIsComplete | lib/api/teachers.ts:87-123 | The profile returned on a failed request has subjects and a teaching philosophy. |
| Dashboard.FailedRequestStaysOnDashboard | app/dashboard/page.tsx:29-44 | A teacher whose profile request fails stays on the dashboard, because the request's error is caught inside the API client, whose fallback profile is complete. |
| Dashboard.View | app/dashboard/page.tsx:53-214 | The loading view shows exactly without a user, and the teacher dashboard exactly for the teacher role. The teacher's upcoming count defaults to 5; the student's counts default to 0; the favourites count is the list's length. |
| Dashboard.FavoriteCount | app/dashboard/page.tsx:214 | The favourites count is the length of the list, and 0 when it is missing. |
| Dashboard.CountDefaults | app/dashboard/page.tsx:86-204 | The teacher's upcoming count is never 0, showing 5 when missing or 0; a student's counts show the stored value, or 0 when missing. |
| TutorDashboard.StartEffect | app/tutor-dashboard/page.tsx:30-41 | A teacher's visit starts the profile and pending-meeting requests and leaves the state alone; any other visit starts nothing and ends loading. |
| TutorDashboard.RedirectTarget | app/tutor-dashboard/page.tsx:44-49 | Exactly a signed-in user who is not a teacher is redirected, to "/dashboard". |
| TutorDashboard.Complete | app/tutor-dashboard/page.tsx:31-38 | A loaded profile is stored (the development profile on a failed request) and ends loading. A rejected profile call stores "Failed to load profile" and ends loading. The meeting count becomes the number of pending meetings, or 0 on failure. |
| TutorDashboard.CompletionsCommute | app/tutor-dashboard/page.tsx:31-38 | The profile and meeting completions may arrive in either order with the same resulting state. |
| TutorDashboard.View | app/tutor-dashboard/page.tsx:51-83 | Nothing renders without a user or for a non-teacher. A teacher sees "Loading..." exactly while loading. After loading, the error text (or "No data found") shows when there is an error or no profile, and otherwise the dashboard with the username or "Tutor", the review count or 0, and the pending-meeting count. |
| TutorDashboard.InitialIsFirstOfName | app/tutor-dashboard/page.tsx:74-77 | The avatar initial is the first character of the shown name, which is never empty. |
| TutorDashboard.FailedProfileRequestShowsDevelopmentProfile | app/tutor-dashboard/page.tsx:30-77 | A teacher whose profile request fails sees the ready dashboard of "Dr. Sarah Johnson", initial "D", 124 reviews, with the pending-meeting count that arrived or 0. |
| TutorDashboard.NonTeacherIsRedirected | app/tutor-dashboard/page.tsx:39-57 | A non-teacher starts no request, is not left loading, sees nothing and is redirected to "/dashboard". |
| Teachers.FindOrFirst | lib/api/teachers.ts:373 | The result is in the list: the first teacher with the id when there is one, and the first teacher otherwise. |
| Teachers.FindFrom | lib/api/teachers.ts:373 | The search from an index finds the first teacher at or after it with the id, and finds none exactly when no such teacher exists. |
| Teachers.GetTeacherById | lib/api/teachers.ts:303-375 | The API's record when the request succeeds. Otherwise a mock teacher: the one with the id for ids 1 and 2, and the first mock for any other id. |
| Teachers.GetCurrentTeacherProfile | lib/api/teachers.ts:83-124 | The API's record when the request succeeds, and the complete development profile otherwise; it never fails. |
| Teachers.UpdatePayload | lib/api/teachers.ts:129-151 | The payload equals the input data except possibly the profile picture. That is replaced by the upload URL exactly when a picture was given and its upload succeeded, and kept otherwise. |

## Left out

- HTTP clients, authentication, local storage and logging are I/O around the rules, not rules. The API answers and the current user are inputs.
- Effect scheduling and React state setters are not modelled; their results are inputs. This covers the tutor fetch (components/tutor-list.tsx:33-85) and the re-run of the dashboard check when the user changes.
- The chat store (`lib/stores/chat-store`), its polling, mark-as-read, the user-mapping cache and the chat library `lib/chat` that supplies the dashboard card's chats (`getAllChats`) are not part of this model. Their outputs are inputs here.
- Rendering detail is not modelled: markup, styling, avatar image URLs, date and time formatting, `toFixed(1)` ratings and the participant-subject badge.
- Ratings, hourly rates and years of experience are mathematical reals, not IEEE-754 doubles. Case mapping is ASCII only, not full Unicode case folding. Trim uses the ECMA-262 white-space and line-terminator set.
- Strings are sequences of Unicode scalar values, not of UTF-16 code units. A first character (`n[0]`, `displayName?.[0]`, `charAt(0)`) is therefore the first code point. For a name that starts outside the Basic Multilingual Plane, the source yields a lone surrogate, which this model does not represent.
- Profile fields that no rule reads are left out of `TeacherProfile`: the descriptions, education, certifications, achievements, reviews, teaching experience and availability.
- ChatsPage.ConversationsList: models integer keys below 2^32 - 1 only. `Object.entries` lists those first, in ascending order. Larger or non-numeric keys follow in insertion order, so they are listed out of ascending order, and non-numeric ones parse to NaN. This model does not represent either.
- MessagesPage.PaneFor: a selected id with no table entry makes `selectedMessages.map` throw. The model reports this as the `PaneCrash` pane rather than modelling React's error handling.
- ChatPreview.RowFor: a listed chat that has a counterparty but no messages reads a field of `undefined` and throws. The model reports this as the `Crash` row and the `Crashed` card rather than modelling React's error handling.
- Dashboard.CheckTeacherProfile: the API answer is an `Option<TeacherProfile>`, so the model cannot represent a successful request with a `null` body. Such a body throws when `.subjects` is read inside the `try`. It reaches the `catch` and redirects without the toast, as does a throwing `toast` or `router.push`. In the model, only a failure to load the teacher module takes that path. `getCurrentTeacherProfile` catches request errors itself and returns a complete profile (see Dashboard.FailedRequestStaysOnDashboard).
- TutorDashboard.Complete: `getCurrentTeacherProfile` never rejects on a request error, so a rejection is kept only as an input that the API client does not produce. The API answer is an `Option<TeacherProfile>`, so `ProfileLoaded` always stores a profile. A successful request with a `null` body, which `.then(setTutorData)` stores and the page shows as "No data found", cannot be represented.
- MessagesPage: the mock conversations and messages are data, not behaviour; the page's state carries them as inputs. The search box on that page is not wired to anything.

## Findings

| source | as written | input that shows it | evidently intended | confidence | as-written member | corrected member |
|---|---|---|---|---|---|---|
| app/messages/page.tsx:378 | `!message.senderId === user.id` negates the sender id first, then compares a boolean with a string under `===`; the guard is never true, so no incoming message ever gets the sender's avatar | message "msg-1-2" from "tutor-1" viewed by the fallback user "user-1" | `message.senderId !== user.id`: the avatar appears exactly on messages the user did not send | high; not executed | MessagesPage.AvatarGuardNeverHolds | MessagesPage.IncomingAvatarIffNotOwn |

=== FILE: base.dfy ===
/** Shared value types: optional values and the JavaScript truthiness rules the
    components rely on when they write `a || b` or `if (x)`. */
module Base {

  /** A value that may be absent (`undefined`/`null` in the source). */
  datatype Option<+T> = None | Some(value: T) {

    /** The wrapped value, or `default` when absent. */
    function GetOr(default: T): T {
      match this
      case Some(v) => v
      case None => default
    }
  }

  /** JavaScript truthiness of a string: only the empty string is falsy. */
  predicate TruthyStr(s: string) {
    s != ""
  }

  /** JavaScript truthiness of an optional string (`undefined`, `null` and `""` are falsy). */
  predicate TruthyOptStr(s: Option<string>) {
    s.Some? && TruthyStr(s.value)
  }

  /** `s || fallback` for an optional string. */
  function OrStr(s: Option<string>, fallback: string): (r: string)
    ensures TruthyOptStr(s) ==> r == s.value
    ensures !TruthyOptStr(s) ==> r == fallback
  {
    if TruthyOptStr(s) then s.value else fallback
  }

  /** `n || fallback` for an optional integer: `undefined`, `null` and `0` are falsy. */
  function OrInt(n: Option<int>, fallback: int): (r: int)
    ensures n.Some? && n.value != 0 ==> r == n.value
    ensures n.None? || n.value == 0 ==> r == fallback
  {
    if n.Some? && n.value != 0 then n.value else fallback
  }

  /** `x || 0` for an optional real: a missing value and zero both read as zero,
      so the result is the value when present and zero otherwise. */
  function OrZero(x: Option<real>): (r: real)
    ensures x.Some? ==> r == x.value
    ensures x.None? ==> r == 0.0
  {
    match x
    case Some(v) => v
    case None => 0.0
  }
}

=== FILE: chat_page.dfy ===
/** The conversation list of the chats page: turning the store's
    conversations object into a list, and what each row and the empty state
    display. The conversations object is an input (the chat store and the
    user-mapping cache are not part of this model). */
module ChatsPage {

  import opened Base
  import opened Text

  /** The signed-in user, as far as the page reads it. */
  datatype ChatUser = ChatUser(id: int, role: string)

  datatype UserRef = UserRef(id: int, username: string)

  datatype LastMessage = LastMessage(sender: UserRef, recipient: UserRef, content: string, sentAt: string)

  /** A conversation as the store holds it, keyed by the counterparty's id. */
  datatype Conversation = Conversation(lastMessage: Option<LastMessage>, unreadCount: int)

  /** `{ id: parseInt(key), ...conversation }`. */
  datatype ConversationRow = ConversationRow(id: int, conversation: Conversation)

  datatype DateLabel = SentAt(timestamp: string) | NoMessages

  datatype RowView = RowView(
    id: int, displayName: string, initial: string, highlighted: bool,
    badge: Option<int>, preview: string, date: DateLabel, roleBadge: string)

  datatype PageView =
    | LoginPrompt
    | ListPage(countBadge: nat, rows: seq<RowView>, emptyTitle: Option<string>, emptyHint: Option<string>)

  /** The largest canonical array index of ECMA-262 plus one (2^32 - 1):
      integer keys below it are listed first, in ascending order. */
  const ArrayIndexBound: nat := 0xFFFF_FFFF

  /** Every non-empty set of naturals has a least element. */
  lemma {:induction false} MinExists(s: set<nat>) returns (least: nat)
    requires s != {}
    ensures least in s && forall j :: j in s ==> least <= j
  {
    var x :| x in s;
    var rest := s - {x};
    if rest == {} {
      assert s == {x};
      least := x;
    } else {
      var m := MinExists(rest);
      least := if x < m then x else m;
      forall j | j in s
        ensures least <= j
      {
        if j != x {
          assert j in rest;
        }
      }
    }
  }

  /** `parseInt(key)` of the string `Object.entries` gives for the integer
      key `k`: the decimal rendering of `k` read back. */
  function KeyId(k: nat): (id: int)
    ensures id == k
  {
    ParseIntOfNatToString(k);
    ParseInt(NatToString(k)).value
  }

  /** `Object.entries(conversations).map(([key, c]) => ({ id: parseInt(key), ...c }))`
      for a conversations object keyed by numeric ids: one row per entry, in
      ascending id order (the order `Object.entries` gives array-index keys),
      each row carrying the id its key string parses back to and the
      conversation unchanged. */
  method ConversationsList(conversations: map<nat, Conversation>) returns (rows: seq<ConversationRow>)
    requires forall k :: k in conversations ==> k < ArrayIndexBound
    ensures |rows| == |conversations|
    ensures forall i :: 0 <= i < |rows| ==>
              rows[i].id in conversations && rows[i].conversation == conversations[rows[i].id]
    ensures forall k :: k in conversations ==> exists i :: 0 <= i < |rows| && rows[i].id == k
    ensures forall i, j :: 0 <= i < j < |rows| ==> rows[i].id < rows[j].id
  {
    var remaining := conversations.Keys;
    rows := [];
    while remaining != {}
      invariant ListedSoFar(conversations, rows, remaining)
      decreases |remaining|
    {
      ghost var least := MinExists(remaining);
      var k :| k in remaining && forall j :: j in remaining ==> k <= j;
      var id := KeyId(k);
      ListNextKey(conversations, rows, remaining, k);
      rows := rows + [ConversationRow(id, conversations[k])];
      remaining := remaining - {k};
    }
  }

  /** The loop state of `ConversationsList`: `rows` lists, in ascending order,
      exactly the keys not in `remaining`, and all of them are below every key
      still to come. */
  ghost predicate ListedSoFar(conversations: map<nat, Conversation>, rows: seq<ConversationRow>, remaining: set<nat>) {
    && remaining <= conversations.Keys
    && (forall i :: 0 <= i < |rows| ==>
          rows[i].id in conversations && rows[i].conversation == conversations[rows[i].id])
    && (forall k :: k in conversations && k !in remaining ==>
          exists i :: 0 <= i < |rows| && rows[i].id == k)
    && (forall i, j :: 0 <= i < j < |rows| ==> rows[i].id < rows[j].id)
    && (forall i, k :: 0 <= i < |rows| && k in remaining ==> rows[i].id < k)
    && |rows| + |remaining| == |conversations|
  }

  /** Listing the least remaining key keeps the loop state. */
  lemma ListNextKey(conversations: map<nat, Conversation>, rows: seq<ConversationRow>, remaining: set<nat>, k: nat)
    requires ListedSoFar(conversations, rows, remaining)
    requires k in remaining && forall j :: j in remaining ==> k <= j
    ensures ListedSoFar(conversations, rows + [ConversationRow(k, conversations[k])], remaining - {k})
  {
    var rows' := rows + [ConversationRow(k, conversations[k])];
    var remaining' := remaining - {k};
    assert rows'[|rows|].id == k;
    forall i | 0 <= i < |rows'|
      ensures rows'[i].id in conversations && rows'[i].conversation == conversations[rows'[i].id]
    {
      if i < |rows| {
        assert rows'[i] == rows[i];
      }
    }
    forall k' | k' in conversations && k' !in remaining'
      ensures exists i :: 0 <= i < |rows'| && rows'[i].id == k'
    {
      if k' != k {
        var i :| 0 <= i < |rows| && rows[i].id == k';
        assert rows'[i].id == k';
      }
    }
    forall i, j | 0 <= i < j < |rows'|
      ensures rows'[i].id < rows'[j].id
    {
      assert rows'[i] == rows[i];
      if j < |rows| {
        assert rows'[j] == rows[j];
      }
    }
    forall i, k' | 0 <= i < |rows'| && k' in remaining'
      ensures rows'[i].id < k'
    {
      if i < |rows| {
        assert rows'[i] == rows[i];
      }
    }
  }

  /** The name shown for a conversation: with a last message, the username of
      whichever side of it is not the user (the same rule for both roles);
      without one, "Tutor <id>" for a student and "Student <id>" otherwise. */
  function DisplayName(user: ChatUser, row: ConversationRow): string {
    match row.conversation.lastMessage
    case Some(m) =>
      if user.role == "student" then
        (if m.sender.id == user.id then m.recipient.username else m.sender.username)
      else
        (if m.sender.id == user.id then m.recipient.username else m.sender.username)
    case None =>
      (if user.role == "student" then "Tutor " else "Student ") + IntToString(row.id)
  }

  /** `displayName?.[0]?.toUpperCase() || (student ? 'T' : 'S')`. */
  function DisplayInitial(user: ChatUser, name: string): (r: string)
    ensures |r| == 1
    ensures name != "" ==> r[0] == UpperChar(name[0])
    ensures name == "" ==> r == (if user.role == "student" then "T" else "S")
  {
    if |name| > 0 then [UpperChar(name[0])]
    else if user.role == "student" then "T" else "S"
  }

  /** The row of one conversation. */
  function RowFor(user: ChatUser, row: ConversationRow): (r: RowView)
    ensures r.id == row.id
    ensures r.displayName == DisplayName(user, row)
    ensures r.initial == DisplayInitial(user, r.displayName)
    ensures r.roleBadge == (if user.role == "student" then "Tutor" else "Student")
    ensures r.highlighted <==> row.conversation.unreadCount > 0
    ensures r.badge.Some? <==> row.conversation.unreadCount > 0
    ensures r.badge.Some? ==> r.badge.value == row.conversation.unreadCount
    ensures row.conversation.lastMessage.None? ==>
              r.preview == "Start a conversation" && r.date == NoMessages
    ensures row.conversation.lastMessage.Some? ==>
              r.preview == row.conversation.lastMessage.value.content &&
              r.date == SentAt(row.conversation.lastMessage.value.sentAt)
  {
    var name := DisplayName(user, row);
    var last := row.conversation.lastMessage;
    RowView(
      row.id, name, DisplayInitial(user, name),
      row.conversation.unreadCount > 0,
      if row.conversation.unreadCount > 0 then Some(row.conversation.unreadCount) else None,
      if last.Some? then last.value.content else "Start a conversation",
      if last.Some? then SentAt(last.value.sentAt) else NoMessages,
      if user.role == "student" then "Tutor" else "Student")
  }

  function RowsFor(user: ChatUser, rows: seq<ConversationRow>): (r: seq<RowView>)
    ensures |r| == |rows|
    ensures forall k :: 0 <= k < |rows| ==> r[k] == RowFor(user, rows[k])
  {
    if |rows| == 0 then [] else [RowFor(user, rows[0])] + RowsFor(user, rows[1..])
  }

  /** `ChatsPage`: the log-in prompt without a user; otherwise every
      conversation as a row (the search term filters nothing), the count
      badge, and the empty state, whose text depends on whether a search term
      was typed. */
  function Page(user: Option<ChatUser>, rows: seq<ConversationRow>, searchTerm: string): (r: PageView)
    ensures user.None? <==> r.LoginPrompt?
    ensures r.ListPage? ==>
              && r.countBadge == |rows|
              && |r.rows| == |rows|
              && (forall k :: 0 <= k < |rows| ==> r.rows[k] == RowFor(user.value, rows[k]))
              && (r.emptyTitle.Some? <==> rows == [])
    ensures r.ListPage? && rows == [] ==>
              r.emptyTitle.value == (if searchTerm != "" then "No conversations match your search" else "No conversations yet")
    ensures r.ListPage? ==> (r.emptyHint.Some? <==> rows == [])
    ensures r.ListPage? && rows == [] ==>
              r.emptyHint.value == (if searchTerm != "" then "Try adjusting your search terms" else "Start connecting with your tutors and students")
  {
    match user
    case None => LoginPrompt
    case Some(u) =>
      var filtered := rows;
      ListPage(
        |filtered|, RowsFor(u, filtered),
        if |filtered| == 0 then
          Some(if searchTerm != "" then "No conversations match your search" else "No conversations yet")
        else None,
        if |filtered| == 0 then
          Some(if searchTerm != "" then "Try adjusting your search terms" else "Start connecting with your tutors and students")
        else None)
  }

  /** With a last message the shown name is the other side's username,
      whatever the user's role; without one it is the role's placeholder with
      the counterparty id. */
  lemma DisplayNameRule(user: ChatUser, other: ChatUser, row: ConversationRow)
    requires other.id == user.id
    ensures row.conversation.lastMessage.Some? ==>
              DisplayName(user, row) == DisplayName(other, row) &&
              DisplayName(user, row) ==
                (var m := row.conversation.lastMessage.value;
                 if m.sender.id == user.id then m.recipient.username else m.sender.username)
    ensures row.conversation.lastMessage.None? ==>
              DisplayName(user, row) ==
                (if user.role == "student" then "Tutor " else "Student ") + IntToString(row.id)
  {
  }

  /** The search term never changes the rows: any two terms give the same
      list and count. */
  lemma SearchTermDoesNotFilter(user: ChatUser, rows: seq<ConversationRow>, t1: string, t2: string)
    ensures Page(Some(user), rows, t1).rows == Page(Some(user), rows, t2).rows
    ensures Page(Some(user), rows, t1).countBadge == |rows|
  {
  }
}

=== FILE: dashboard.dfy ===
/** The dashboard page: the teacher-profile check that may send a teacher to
    onboarding, the role branch, and the defaults of the summary counts. The
    signed-in user and the outcome of loading the teacher module are inputs. */
module Dashboard {

  import opened Base
  import opened Teachers

  /** The signed-in user, as far as the dashboard reads it. */
  datatype DashUser = DashUser(
    id: int,
    role: string,
    upcomingSessions: Option<int>,
    completedSessions: Option<int>,
    favoriteTutors: Option<seq<int>>)

  /** How the profile check's `await` ends: the teacher module fails to load
      (the promise rejects), or it loads and `getCurrentTeacherProfile` runs
      with the API's answer (`None` when the request fails). */
  datatype ProfileSource = ModuleLoadFailed | ModuleLoaded(api: Option<TeacherProfile>)

  /** What the profile check does: nothing (no user, or not a teacher),
      nothing visible (a complete profile), or a push to onboarding, with the
      "Complete Your Profile" toast when the profile was read and found
      incomplete and without it when the check threw. */
  datatype ProfileCheck = NoCheck | StayOnDashboard | ToOnboarding(toast: bool)

  const OnboardingPath := "/teacher-onboarding"

  /** A profile is complete when it lists at least one subject and has a
      truthy teaching philosophy (the empty string is not one). */
  predicate ProfileComplete(p: TeacherProfile) {
    p.subjects.Some? && |p.subjects.value| > 0 && TruthyOptStr(p.teachingPhilosophy)
  }

  /** The dashboard's profile effect. */
  function CheckTeacherProfile(user: Option<DashUser>, source: ProfileSource): (r: ProfileCheck)
    ensures user.None? || user.value.role != "teacher" ==> r == NoCheck
    ensures user.Some? && user.value.role == "teacher" && source.ModuleLoadFailed? ==> r == ToOnboarding(false)
    ensures user.Some? && user.value.role == "teacher" && source.ModuleLoaded? ==>
              (r == ToOnboarding(true) <==> !ProfileComplete(GetCurrentTeacherProfile(source.api))) &&
              (r == StayOnDashboard <==> ProfileComplete(GetCurrentTeacherProfile(source.api)))
  {
    match user
    case None => NoCheck
    case Some(u) =>
      if u.role != "teacher" then NoCheck
      else
        match source
        case ModuleLoadFailed => ToOnboarding(false)
        case ModuleLoaded(api) =>
          var profile := GetCurrentTeacherProfile(api);
          if !ProfileComplete(profile) then ToOnboarding(true) else StayOnDashboard
  }

  /** The development profile that `getCurrentTeacherProfile` returns on a
      failed request is complete. */
  lemma DevelopmentProfileIsComplete()
    ensures ProfileComplete(SarahJohnson)
  {
    assert |SarahJohnson.subjects.value| == 2;
  }

  /** A failed profile request never reaches the onboarding redirect: the
      request's error is caught inside `getCurrentTeacherProfile`, whose
      fallback profile is complete. Only a failure to load the module
      redirects without reading a profile. */
  lemma FailedRequestStaysOnDashboard(u: DashUser)
    requires u.role == "teacher"
    ensures CheckTeacherProfile(Some(u), ModuleLoaded(None)) == StayOnDashboard
  {
    DevelopmentProfileIsComplete();
  }

  /** A teacher is sent to onboarding exactly when the module fails to load or
      the profile read lacks subjects or a teaching philosophy; nobody else is
      ever sent there. */
  lemma OnboardingIff(user: Option<DashUser>, source: ProfileSource)
    ensures CheckTeacherProfile(user, source).ToOnboarding? <==>
            user.Some? && user.value.role == "teacher" &&
            (source.ModuleLoadFailed? || !ProfileComplete(GetCurrentTeacherProfile(source.api)))
  {
  }

  /** The page: the loading state without a user, the teacher dashboard for
      the teacher role, and the student dashboard for every other role. */
  datatype DashboardView =
    | Loading
    | TeacherDashboard(upcoming: int)
    | StudentDashboard(upcoming: int, completed: int, favorites: int)

  /** `user?.favoriteTutors?.length || 0`. */
  function FavoriteCount(favorites: Option<seq<int>>): (r: nat)
    ensures favorites.Some? ==> r == |favorites.value|
    ensures favorites.None? ==> r == 0
  {
    match favorites
    case Some(s) => |s|
    case None => 0
  }

  function View(user: Option<DashUser>): (r: DashboardView)
    ensures user.None? <==> r.Loading?
    ensures r.TeacherDashboard? <==> user.Some? && user.value.role == "teacher"
    ensures r.TeacherDashboard? ==> r.upcoming == OrInt(user.value.upcomingSessions, 5)
    ensures r.StudentDashboard? ==>
              && r.upcoming == OrInt(user.value.upcomingSessions, 0)
              && r.completed == OrInt(user.value.completedSessions, 0)
              && r.favorites == FavoriteCount(user.value.favoriteTutors)
  {
    match user
    case None => Loading
    case Some(u) =>
      if u.role == "teacher" then TeacherDashboard(OrInt(u.upcomingSessions, 5))
      else StudentDashboard(OrInt(u.upcomingSessions, 0), OrInt(u.completedSessions, 0), FavoriteCount(u.favoriteTutors))
  }

  /** The teacher's "Upcoming Sessions" is never zero: a missing or zero count
      shows 5. A student's counts show the stored value, and zero for a
      missing one. */
  lemma CountDefaults(u: DashUser)
    ensures u.role == "teacher" ==> View(Some(u)).upcoming != 0
    ensures u.role == "teacher" && (u.upcomingSessions.None? || u.upcomingSessions.value == 0) ==>
              View(Some(u)).upcoming == 5
    ensures u.role != "teacher" && u.upcomingSessions.Some? ==> View(Some(u)).upcoming == u.upcomingSessions.value
    ensures u.role != "teacher" && u.upcomingSessions.None? ==> View(Some(u)).upcoming == 0
    ensures u.role != "teacher" && u.completedSessions.None? ==> View(Some(u)).completed == 0
  {
  }
}

=== FILE: dashboard_chat_preview.dfy ===
/** The "Recent Messages" card of the dashboards: which chats it lists, the
    unread counts it shows, and what each listed row displays. The chats are
    an input (the chat library that supplies them is not part of this model). */
module ChatPreview {

  import opened Base
  import opened Text
  import opened Seqs

  datatype Participant = Participant(id: string, name: string, avatar: Option<string>, role: string, subject: Option<string>)

  datatype ChatMessage = ChatMessage(id: string, senderId: string, text: string, timestamp: string, isRead: bool)

  datatype Chat = Chat(id: string, participants: seq<Participant>, messages: seq<ChatMessage>)

  /** The signed-in user, as far as the card reads it. */
  datatype CurrentUser = CurrentUser(id: string)

  /** One listed chat. `Skipped` renders nothing (no other participant);
      `Crash` is a chat with another participant but no messages, whose last
      message is `undefined`, so reading its timestamp throws. */
  datatype Row =
    | Skipped
    | Crash
    | Shown(chatId: string, name: string, initials: string, lastText: string, lastTimestamp: string,
            unread: nat, badge: bool, highlighted: bool)

  /** What the card renders: nothing without a user, a render error when a
      listed row throws, or the card itself. */
  datatype PreviewView =
    | Nothing
    | Crashed
    | Card(unreadTotal: nat, headerBadge: bool, rows: seq<Row>, emptyState: bool)

  /** A message the user has not read and did not send. */
  predicate IsUnreadFor(m: ChatMessage, userId: string) {
    m.senderId != userId && !m.isRead
  }

  /** `messages.filter((m) => m.senderId !== user.id && !m.isRead).length`. */
  function UnreadCount(messages: seq<ChatMessage>, userId: string): nat {
    |Filter(messages, Unread(userId))|
  }

  function Unread(userId: string): ChatMessage -> bool {
    m => IsUnreadFor(m, userId)
  }

  /** Unread counts add up over concatenated message lists. */
  lemma UnreadCountAppend(a: seq<ChatMessage>, b: seq<ChatMessage>, userId: string)
    ensures UnreadCount(a + b, userId) == UnreadCount(a, userId) + UnreadCount(b, userId)
  {
    FilterAppend(a, b, Unread(userId));
  }

  /** The count is zero exactly when no message is an unread incoming one, and
      the user's own messages never add to it, read or not. */
  lemma UnreadCountMeaning(messages: seq<ChatMessage>, userId: string, own: ChatMessage)
    requires own.senderId == userId
    ensures UnreadCount(messages, userId) == 0 <==>
            forall k :: 0 <= k < |messages| ==> !IsUnreadFor(messages[k], userId)
    ensures UnreadCount(messages + [own], userId) == UnreadCount(messages, userId)
  {
    var f := Filter(messages, Unread(userId));
    FilterMembers(messages, Unread(userId));
    if UnreadCount(messages, userId) != 0 {
      assert f[0] in f;
    }
    forall k | 0 <= k < |messages| && IsUnreadFor(messages[k], userId)
      ensures messages[k] in f
    {
    }
    UnreadCountAppend(messages, [own], userId);
    assert Filter([own], Unread(userId)) == [];
  }

  /** The header total as `chats.reduce((total, chat) => total + count, acc)`. */
  function ReduceUnread(chats: seq<Chat>, userId: string, acc: nat): nat {
    if |chats| == 0 then acc
    else ReduceUnread(chats[1..], userId, acc + UnreadCount(chats[0].messages, userId))
  }

  /** The sum of the per-chat unread counts. */
  function SumUnread(chats: seq<Chat>, userId: string): nat {
    if |chats| == 0 then 0 else UnreadCount(chats[0].messages, userId) + SumUnread(chats[1..], userId)
  }

  lemma {:induction false} ReduceIsSum(chats: seq<Chat>, userId: string, acc: nat)
    ensures ReduceUnread(chats, userId, acc) == acc + SumUnread(chats, userId)
  {
    if |chats| > 0 {
      ReduceIsSum(chats[1..], userId, acc + UnreadCount(chats[0].messages, userId));
    }
  }

  lemma {:induction false} SumUnreadAppend(a: seq<Chat>, b: seq<Chat>, userId: string)
    ensures SumUnread(a + b, userId) == SumUnread(a, userId) + SumUnread(b, userId)
  {
    if |a| == 0 {
      assert a + b == b;
    } else {
      SumUnreadAppend(a[1..], b, userId);
      assert (a + b)[0] == a[0];
      assert (a + b)[1..] == a[1..] + b;
      calc {
        SumUnread(a + b, userId);
        UnreadCount(a[0].messages, userId) + SumUnread(a[1..] + b, userId);
        UnreadCount(a[0].messages, userId) + SumUnread(a[1..], userId) + SumUnread(b, userId);
      }
    }
  }

  /** The header total equals the sum of the per-chat counts the rows use, so
      it is at least the sum over the chats the card lists. */
  lemma HeaderTotalIsSumOfRows(chats: seq<Chat>, userId: string)
    ensures ReduceUnread(chats, userId, 0) == SumUnread(chats, userId)
    ensures SumUnread(RecentChats(chats), userId) <= ReduceUnread(chats, userId, 0)
  {
    ReduceIsSum(chats, userId, 0);
    var n := |RecentChats(chats)|;
    assert chats == chats[..n] + chats[n..];
    SumUnreadAppend(chats[..n], chats[n..], userId);
  }

  /** `chats.slice(0, 3)`: the first three chats, in the given order. */
  function RecentChats(chats: seq<Chat>): (r: seq<Chat>)
    ensures |r| == if |chats| < 3 then |chats| else 3
    ensures r == chats[..|r|]
  {
    if |chats| < 3 then chats else chats[..3]
  }

  /** `participants.find((p) => p.id !== user.id)`: the first participant who
      is not the user. */
  function Counterparty(participants: seq<Participant>, userId: string): (r: Option<Participant>)
    ensures r.None? <==> forall k :: 0 <= k < |participants| ==> participants[k].id == userId
    ensures r.Some? ==> exists k :: 0 <= k < |participants| && participants[k] == r.value &&
                                    r.value.id != userId &&
                                    forall j :: 0 <= j < k ==> participants[j].id == userId
  {
    if |participants| == 0 then None
    else if participants[0].id != userId then Some(participants[0])
    else
      var r := Counterparty(participants[1..], userId);
      assert forall k :: 1 <= k < |participants| ==> participants[k] == participants[1..][k - 1];
      r
  }

  /** `messages[messages.length - 1]`: the final message, `undefined` for none. */
  function LastMessage(messages: seq<ChatMessage>): (r: Option<ChatMessage>)
    ensures r.None? <==> messages == []
    ensures r.Some? ==> r.value == messages[|messages| - 1]
  {
    if |messages| == 0 then None else Some(messages[|messages| - 1])
  }

  /** The row of one listed chat. */
  function RowFor(chat: Chat, userId: string): (r: Row)
    ensures r.Skipped? <==> Counterparty(chat.participants, userId).None?
    ensures r.Crash? <==> Counterparty(chat.participants, userId).Some? && chat.messages == []
    ensures r.Shown? ==>
              && r.chatId == chat.id
              && r.name == Counterparty(chat.participants, userId).value.name
              && r.initials == Initials(r.name)
              && r.lastText == chat.messages[|chat.messages| - 1].text
              && r.lastTimestamp == chat.messages[|chat.messages| - 1].timestamp
              && r.unread == UnreadCount(chat.messages, userId)
              && (r.badge <==> exists k :: 0 <= k < |chat.messages| && IsUnreadFor(chat.messages[k], userId))
              && r.highlighted == r.badge
  {
    match Counterparty(chat.participants, userId)
    case None => Skipped
    case Some(p) =>
      match LastMessage(chat.messages)
      case None => Crash
      case Some(last) =>
        var unread := UnreadCount(chat.messages, userId);
        UnreadCountMeaning(chat.messages, userId, ChatMessage("", userId, "", "", false));
        Shown(chat.id, p.name, Initials(p.name), last.text, last.timestamp, unread, unread > 0, unread > 0)
  }

  function RowsFor(chats: seq<Chat>, userId: string): (r: seq<Row>)
    ensures |r| == |chats|
    ensures forall k :: 0 <= k < |chats| ==> r[k] == RowFor(chats[k], userId)
  {
    if |chats| == 0 then [] else [RowFor(chats[0], userId)] + RowsFor(chats[1..], userId)
  }

  /** `DashboardChatPreview`: nothing without a user; otherwise the card with
      the header total over all chats and one row per chat among the first
      three, unless one of those rows throws. */
  function Preview(user: Option<CurrentUser>, chats: seq<Chat>): (r: PreviewView)
    ensures r.Nothing? <==> user.None?
    ensures user.Some? ==>
              (r.Crashed? <==> exists k :: 0 <= k < |RecentChats(chats)| && RowFor(chats[k], user.value.id).Crash?)
    ensures user.Some? ==>
              (r.Card? <==> forall k :: 0 <= k < |RecentChats(chats)| ==> !RowFor(chats[k], user.value.id).Crash?)
    ensures r.Card? ==>
              && user.Some?
              && r.unreadTotal == SumUnread(chats, user.value.id)
              && (r.headerBadge <==> r.unreadTotal > 0)
              && |r.rows| == |RecentChats(chats)|
              && (forall k :: 0 <= k < |r.rows| ==> r.rows[k] == RowFor(chats[k], user.value.id))
              && (r.emptyState <==> chats == [])
  {
    match user
    case None => Nothing
    case Some(u) =>
      var recent := RecentChats(chats);
      var rows := RowsFor(recent, u.id);
      if exists k :: 0 <= k < |rows| && rows[k].Crash? then Crashed
      else
        var total := ReduceUnread(chats, u.id, 0);
        HeaderTotalIsSumOfRows(chats, u.id);
        Card(total, total > 0, rows, |recent| == 0)
  }

  /** With no user the card reads no chat: its output is the same whatever
      the chat list. */
  lemma NoUserIgnoresChats(a: seq<Chat>, b: seq<Chat>)
    ensures Preview(None, a) == Preview(None, b) == Nothing
  {
  }

  /** The header badge shows exactly when some chat, listed or not, holds an
      unread message from someone else. */
  lemma {:induction false} HeaderBadgeIffSomeUnread(chats: seq<Chat>, userId: string)
    ensures SumUnread(chats, userId) > 0 <==>
            exists c, k :: 0 <= c < |chats| && 0 <= k < |chats[c].messages| &&
                           IsUnreadFor(chats[c].messages[k], userId)
  {
    if |chats| > 0 {
      HeaderBadgeIffSomeUnread(chats[1..], userId);
      UnreadCountMeaning(chats[0].messages, userId, ChatMessage("", userId, "", "", false));
      if exists c, k :: 0 <= c < |chats[1..]| && 0 <= k < |chats[1..][c].messages| &&
                        IsUnreadFor(chats[1..][c].messages[k], userId) {
        var c, k :| 0 <= c < |chats[1..]| && 0 <= k < |chats[1..][c].messages| &&
                    IsUnreadFor(chats[1..][c].messages[k], userId);
        assert chats[c + 1] == chats[1..][c];
      }
      if exists c, k :: 0 <= c < |chats| && 0 <= k < |chats[c].messages| &&
                        IsUnreadFor(chats[c].messages[k], userId) {
        var c, k :| 0 <= c < |chats| && 0 <= k < |chats[c].messages| &&
                    IsUnreadFor(chats[c].messages[k], userId);
        if c > 0 {
          assert chats[1..][c - 1] == chats[c];
        }
      }
    }
  }
}

=== FILE: messages_page.dfy ===
/** The messages page: the send guard, the send button, the Enter-key rule,
    the selected conversation's messages, the own/incoming classification of a
    message and the conversation-list badges. Sending itself only logs (the
    log is not modelled) and clears the input. */
module MessagesPage {

  import opened Base
  import opened Text

  datatype Participant = Participant(id: string, name: string, avatar: string, role: string, subject: string)

  datatype LastMessage = LastMessage(text: string, timestamp: string, isRead: bool)

  datatype ConversationSummary = ConversationSummary(id: string, participant: Participant, lastMessage: LastMessage, unreadCount: int)

  datatype Message = Message(id: string, senderId: string, text: string, timestamp: string)

  /** The page's state: the selected conversation id (`null` is `None`), the
      input text, and the conversation list and message table it renders. */
  datatype PageState = PageState(
    selected: Option<string>,
    text: string,
    conversations: seq<ConversationSummary>,
    messages: map<string, seq<Message>>)

  /** The user id the page falls back on when no user is signed in. */
  const MockUserId := "user-1"

  /** `getCurrentUser() || { id: "user-1", ... }`. */
  function UserId(signedIn: Option<string>): (r: string)
    ensures signedIn.Some? ==> r == signedIn.value
    ensures signedIn.None? ==> r == MockUserId
  {
    signedIn.GetOr(MockUserId)
  }

  /** `disabled={!messageText.trim()}`: the send button is disabled exactly
      when every character of the input is white space. */
  function SendDisabled(text: string): (r: bool)
    ensures r <==> forall k :: 0 <= k < |text| ==> IsJsSpace(text[k])
  {
    BlankIffAllSpace(text);
    IsBlank(text)
  }

  /** `handleSendMessage`: nothing happens when the trimmed text is empty or
      no conversation is selected; otherwise the input is cleared. */
  function HandleSend(st: PageState): (r: PageState)
    ensures IsBlank(st.text) || !TruthyOptStr(st.selected) ==> r == st
    ensures !IsBlank(st.text) && TruthyOptStr(st.selected) ==> r == st.(text := "")
  {
    if IsBlank(st.text) || !TruthyOptStr(st.selected) then st
    else st.(text := "")
  }

  /** The input's key handler: Enter without Shift sends; any other key, and
      Shift+Enter, leaves the state alone. */
  function KeyDown(st: PageState, key: string, shift: bool): (r: PageState)
    ensures key == "Enter" && !shift ==> r == HandleSend(st)
    ensures key != "Enter" || shift ==> r == st
  {
    if key == "Enter" && !shift then HandleSend(st) else st
  }

  /** The messages pane: `undefined` (`None`) when the selected id has no
      table entry, the entry when it has one, and the empty list when no
      conversation is selected. */
  function SelectedMessages(selected: Option<string>, table: map<string, seq<Message>>): (r: Option<seq<Message>>)
    ensures !TruthyOptStr(selected) ==> r == Some([])
    ensures TruthyOptStr(selected) && selected.value in table ==> r == Some(table[selected.value])
    ensures TruthyOptStr(selected) && selected.value !in table ==> r.None?
  {
    if !TruthyOptStr(selected) then Some([])
    else if selected.value in table then Some(table[selected.value])
    else None
  }

  /** A message is the user's own (right-aligned, primary style) exactly when
      the user sent it. */
  predicate IsOwn(m: Message, userId: string) {
    m.senderId == userId
  }

  /** The two kinds of value JavaScript's `===` compares here. */
  datatype JsValue = JsBool(b: bool) | JsStr(s: string)

  /** `===`: values of different types are never strictly equal. */
  predicate StrictEquals(x: JsValue, y: JsValue) {
    match (x, y)
    case (JsBool(a), JsBool(b)) => a == b
    case (JsStr(a), JsStr(b)) => a == b
    case _ => false
  }

  /** `!s` for a string: `true` exactly for the empty string. */
  function Not(s: string): (r: JsValue)
    ensures r.JsBool?
    ensures r.b <==> s == ""
  {
    JsBool(s == "")
  }

  /** The incoming-avatar guard as written, `!message.senderId === user.id`:
      `!` binds tighter than `===`, so a boolean is compared with a string. */
  predicate AvatarGuardAsWritten(m: Message, userId: string) {
    StrictEquals(Not(m.senderId), JsStr(userId))
  }

  /** The guard as written is false for every message and user: no incoming
      avatar is ever drawn. */
  lemma AvatarGuardNeverHolds(m: Message, userId: string)
    ensures !AvatarGuardAsWritten(m, userId)
  {
  }

  /** The message from the counterparty in the default conversation, viewed by
      the fallback user: incoming, yet the guard as written draws no avatar. */
  lemma AvatarGuardMissesIncoming()
    ensures var m := Message("msg-1-2", "tutor-1", "Hello John!", "2023-05-14T10:35:00");
            !IsOwn(m, MockUserId) && !AvatarGuardAsWritten(m, MockUserId)
  {
  }

  /** The evident intent, `message.senderId !== user.id`: the avatar is drawn
      exactly for the messages that are not the user's own. */
  predicate ShowsIncomingAvatar(m: Message, userId: string) {
    !StrictEquals(JsStr(m.senderId), JsStr(userId))
  }

  /** The corrected guard partitions the messages with the own test: each
      message is either right-aligned or carries the sender's avatar. */
  lemma IncomingAvatarIffNotOwn(m: Message, userId: string)
    ensures ShowsIncomingAvatar(m, userId) <==> !IsOwn(m, userId)
  {
  }

  /** The view of one pane message. */
  datatype MessageView = MessageView(alignedRight: bool, primaryStyle: bool, avatar: bool, text: string)

  /** The page as written: own messages are right-aligned in the primary
      style, and the avatar follows the guard as written, so it never shows. */
  function ViewMessage(m: Message, userId: string): (r: MessageView)
    ensures r.alignedRight <==> IsOwn(m, userId)
    ensures r.primaryStyle == r.alignedRight
    ensures r.avatar == AvatarGuardAsWritten(m, userId)
    ensures !r.avatar
    ensures r.text == m.text
  {
    AvatarGuardNeverHolds(m, userId);
    MessageView(m.senderId == userId, m.senderId == userId, AvatarGuardAsWritten(m, userId), m.text)
  }

  /** The page with the corrected guard: each message is either right-aligned
      or carries the sender's avatar, never both, and the rest of the view is
      that of the page as written. */
  function ViewMessageIntended(m: Message, userId: string): (r: MessageView)
    ensures r.alignedRight <==> IsOwn(m, userId)
    ensures r.avatar <==> !r.alignedRight
    ensures r.(avatar := false) == ViewMessage(m, userId)
  {
    IncomingAvatarIffNotOwn(m, userId);
    ViewMessage(m, userId).(avatar := ShowsIncomingAvatar(m, userId))
  }

  /** The messages pane: the "Select a conversation" prompt without a
      selection; the thread of the selected conversation; or a throw, when the
      selected id has no table entry and `.map` is called on `undefined`. */
  datatype Pane = SelectPrompt | PaneCrash | Thread(views: seq<MessageView>)

  function PaneFor(st: PageState, userId: string): (r: Pane)
    ensures r.SelectPrompt? <==> !TruthyOptStr(st.selected)
    ensures r.PaneCrash? <==> TruthyOptStr(st.selected) && st.selected.value !in st.messages
    ensures r.Thread? ==>
              && st.selected.value in st.messages
              && |r.views| == |st.messages[st.selected.value]|
              && forall k :: 0 <= k < |r.views| ==>
                   r.views[k] == ViewMessage(st.messages[st.selected.value][k], userId)
  {
    if !TruthyOptStr(st.selected) then SelectPrompt
    else
      match SelectedMessages(st.selected, st.messages)
      case None => PaneCrash
      case Some(ms) => Thread(seq(|ms|, k requires 0 <= k < |ms| => ViewMessage(ms[k], userId)))
  }

  /** One entry of the conversation list. */
  datatype EntryView = EntryView(id: string, name: string, initials: string, highlighted: bool, badge: Option<int>)

  function EntryFor(c: ConversationSummary, selected: Option<string>): (r: EntryView)
    ensures r.id == c.id && r.name == c.participant.name
    ensures r.initials == Initials(c.participant.name)
    ensures r.highlighted <==> selected == Some(c.id)
    ensures r.badge.Some? <==> c.unreadCount > 0
    ensures r.badge.Some? ==> r.badge.value == c.unreadCount
  {
    EntryView(c.id, c.participant.name, Initials(c.participant.name),
              selected == Some(c.id),
              if c.unreadCount > 0 then Some(c.unreadCount) else None)
  }

  /** Clicking an entry selects that conversation and changes nothing else. */
  function Select(st: PageState, id: string): (r: PageState)
    ensures r.selected == Some(id)
    ensures r.(selected := st.selected) == st
  {
    st.(selected := Some(id))
  }

  /** Clicking a listed conversation with a non-empty id highlights that
      entry and every entry sharing its id, and no other. The pane then shows
      that conversation's thread when the table has an entry for it; without
      one, the selected messages are `undefined` and the pane throws. */
  lemma SelectShowsConversation(st: PageState, i: nat, userId: string)
    requires i < |st.conversations|
    requires st.conversations[i].id != ""
    ensures var after := Select(st, st.conversations[i].id);
            && EntryFor(st.conversations[i], after.selected).highlighted
            && (forall j :: 0 <= j < |st.conversations| ==>
                  (EntryFor(st.conversations[j], after.selected).highlighted <==>
                   st.conversations[j].id == st.conversations[i].id))
            && SelectedMessages(after.selected, after.messages) ==
                 (if st.conversations[i].id in st.messages
                  then Some(st.messages[st.conversations[i].id]) else None)
            && (PaneFor(after, userId).Thread? <==> st.conversations[i].id in st.messages)
            && (PaneFor(after, userId).PaneCrash? <==> st.conversations[i].id !in st.messages)
  {
  }

  /** Whenever the send button is enabled and a conversation is selected,
      pressing Enter sends, and the send changes only the input, which it
      empties; the conversation list, the message table and the selection
      stay as they were. */
  lemma SendClearsOnlyText(st: PageState)
    requires !IsBlank(st.text) && TruthyOptStr(st.selected)
    ensures var r := KeyDown(st, "Enter", false);
            r.text == "" && r.conversations == st.conversations &&
            r.messages == st.messages && r.selected == st.selected
    ensures KeyDown(st, "Enter", true) == st
  {
  }

  /** The disabled button and the guard agree: a click on a disabled button
      would change nothing, an enabled one sends whenever a conversation is
      selected, and every call leaves the state unchanged or empties the
      input. */
  lemma SendGuardMatchesButton(st: PageState)
    ensures SendDisabled(st.text) ==> HandleSend(st) == st
    ensures !SendDisabled(st.text) && TruthyOptStr(st.selected) ==> HandleSend(st) != st
    ensures HandleSend(st) == st || HandleSend(st).text == ""
  {
  }
}

=== FILE: seqs.dfy ===
/** `Array.prototype.filter` over immutable sequences. */
module Seqs {

  /** The elements of `s` that satisfy `p`, in their original order. */
  function Filter<T(!new)>(s: seq<T>, p: T -> bool): (r: seq<T>)
    ensures |r| <= |s|
  {
    if |s| == 0 then []
    else
      var rest := Filter(s[1..], p);
      if p(s[0]) then [s[0]] + rest else rest
  }

  /** A filter keeps exactly the elements that pass. */
  lemma {:induction false} FilterMembers<T(!new)>(s: seq<T>, p: T -> bool)
    ensures forall x :: x in Filter(s, p) <==> x in s && p(x)
  {
    if |s| > 0 {
      FilterMembers(s[1..], p);
      assert s == [s[0]] + s[1..];
    }
  }

  /** Filtering a sequence with a given first element. */
  lemma FilterCons<T(!new)>(x: T, s: seq<T>, p: T -> bool)
    ensures Filter([x] + s, p) == (if p(x) then [x] else []) + Filter(s, p)
  {
    assert ([x] + s)[0] == x;
    assert ([x] + s)[1..] == s;
  }

  /** Filtering a concatenation filters each part. */
  lemma {:induction false} FilterAppend<T(!new)>(a: seq<T>, b: seq<T>, p: T -> bool)
    ensures Filter(a + b, p) == Filter(a, p) + Filter(b, p)
  {
    if |a| == 0 {
      assert a + b == b;
    } else {
      var x, tail := a[0], a[1..];
      var h := if p(x) then [x] else [];
      assert Filter(a + b, p) == h + Filter(tail + b, p) by {
        assert a + b == [x] + (tail + b);
        FilterCons(x, tail + b, p);
      }
      assert Filter(a, p) == h + Filter(tail, p) by {
        assert a == [x] + tail;
        FilterCons(x, tail, p);
      }
      FilterAppend(tail, b, p);
      assert h + (Filter(tail, p) + Filter(b, p)) == (h + Filter(tail, p)) + Filter(b, p);
    }
  }

  /** A filter drops elements and never duplicates one: its result is a
      sub-multiset of its input. */
  lemma {:induction false} FilterSubMultiset<T(!new)>(s: seq<T>, p: T -> bool)
    ensures multiset(Filter(s, p)) <= multiset(s)
  {
    if |s| > 0 {
      FilterSubMultiset(s[1..], p);
      assert s == [s[0]] + s[1..];
    }
  }

  /** A filter that every element passes returns the sequence unchanged. */
  lemma {:induction false} FilterKeepsAll<T(!new)>(s: seq<T>, p: T -> bool)
    requires forall k :: 0 <= k < |s| ==> p(s[k])
    ensures Filter(s, p) == s
  {
    if |s| > 0 {
      FilterKeepsAll(s[1..], p);
    }
  }
  /** A filter keeps every copy of a passing element and no copy of any
      other: the count of `x` in the result is its count in the input when
      `x` passes, and zero otherwise. */
  lemma {:induction false} FilterCount<T(!new)>(s: seq<T>, p: T -> bool, x: T)
    ensures multiset(Filter(s, p))[x] == if p(x) then multiset(s)[x] else 0
  {
    if |s| > 0 {
      FilterCount(s[1..], p, x);
      assert s == [s[0]] + s[1..];
      assert multiset(s) == multiset{s[0]} + multiset(s[1..]);
    }
  }

  /** Two predicates that agree on every element filter alike. */
  lemma {:induction false} FilterExt<T(!new)>(s: seq<T>, p: T -> bool, q: T -> bool)
    requires forall x :: p(x) == q(x)
    ensures Filter(s, p) == Filter(s, q)
  {
    if |s| > 0 {
      FilterExt(s[1..], p, q);
    }
  }

  /** Filtering by `p` and then by `q` is filtering once by their
      conjunction `pq`. */
  lemma {:induction false} FilterFilter<T(!new)>(s: seq<T>, p: T -> bool, q: T -> bool, pq: T -> bool)
    requires forall x :: pq(x) == (p(x) && q(x))
    ensures Filter(Filter(s, p), q) == Filter(s, pq)
  {
    if |s| > 0 {
      FilterFilter(s[1..], p, q, pq);
      var rest := Filter(s[1..], p);
      if p(s[0]) {
        assert Filter(s, p) == [s[0]] + rest;
        assert ([s[0]] + rest)[1..] == rest;
      }
    }
  }
}

=== FILE: teachers.dfy ===
/** The teacher records of the API layer and the two pure rules of its client
    functions: the find-or-first fallback of `getTeacherById` and the payload
    merge of `updateTeacherProfile`. */
module Teachers {

  import opened Base

  /** A subject a teacher offers, with its hourly rate. */
  datatype Subject = Subject(id: int, teacherId: int, name: string, description: string, hourlyRate: real)

  /** The fields of a teacher profile that the front end reads; every optional
      field of the API record is an `Option`. */
  datatype TeacherProfile = TeacherProfile(
    id: int,
    userId: int,
    username: Option<string>,
    profilePicture: Option<string>,
    yearsOfExperience: Option<real>,
    teachingPhilosophy: Option<string>,
    averageRating: Option<real>,
    totalReviews: Option<int>,
    subjects: Option<seq<Subject>>)

  datatype Education = Education(institution: string, degree: string, field: string, year: string)

  datatype Certification = Certification(name: string, issuer: string, year: string)

  datatype SubjectData = SubjectData(name: string, description: string, hourlyRate: real)

  /** The body of a profile update. */
  datatype TeacherUpdateData = TeacherUpdateData(
    profilePicture: Option<string>,
    bio: Option<string>,
    shortDescription: Option<string>,
    longDescription: Option<string>,
    yearsOfExperience: Option<real>,
    teachingExperience: Option<seq<string>>,
    education: Option<seq<Education>>,
    certifications: Option<seq<Certification>>,
    teachingPhilosophy: Option<string>,
    achievements: Option<string>,
    subjects: Option<seq<SubjectData>>,
    availability: Option<seq<string>>)

  /** The first mock teacher, also the development profile returned when the
      current-teacher request fails. */
  const SarahJohnson := TeacherProfile(
    1, 1, Some("Dr. Sarah Johnson"), Some("https://images.unsplash.com/photo-1573496359142-b8d87734a5a2?ixlib=rb-4.0.3&ixid=M3wxMjA3fDB8MHxwaG90by1wYWdlfHx8fGVufDB8fHx8fA%3D%3D&auto=format&fit=crop&w=400&q=80"),
    Some(10.0),
    Some("I believe every student can succeed in mathematics with the right guidance and practice."),
    Some(4.9), Some(124),
    Some([Subject(1, 1, "Mathematics", "Algebra, Calculus, Geometry", 50.0),
          Subject(2, 1, "Physics", "Mechanics, Thermodynamics, Electromagnetism", 60.0)]))

  const MichaelChen := TeacherProfile(
    2, 2, Some("Prof. Michael Chen"), Some("https://images.unsplash.com/photo-1507003211169-0a1dd7228f2d?ixlib=rb-4.0.3&ixid=M3wxMjA3fDB8MHxwaG90by1wYWdlfHx8fGVufDB8fHx8fA%3D%3D&auto=format&fit=crop&w=400&q=80"),
    Some(8.0),
    Some("Physics should be learned through experimentation and real-world applications."),
    Some(4.8), Some(89),
    Some([Subject(3, 2, "Physics", "Mechanics, Quantum Physics, Relativity", 65.0)]))

  /** The mock list `getTeacherById` falls back on. */
  const MockTeachers: seq<TeacherProfile> := [SarahJohnson, MichaelChen]

  /** `list.find(t => t.id === id) || list[0]` on a non-empty list: the first
      teacher with that id, or the first teacher when none has it. */
  function FindOrFirst(list: seq<TeacherProfile>, id: int): (r: TeacherProfile)
    requires |list| > 0
    ensures r in list
    ensures (exists k :: 0 <= k < |list| && list[k].id == id) ==>
              exists k :: 0 <= k < |list| && list[k] == r && r.id == id &&
                          forall j :: 0 <= j < k ==> list[j].id != id
    ensures (forall k :: 0 <= k < |list| ==> list[k].id != id) ==> r == list[0]
  {
    FindFrom(list, id, 0).GetOr(list[0])
  }

  /** The first index at or after `from` whose teacher has the id. */
  function FindFrom(list: seq<TeacherProfile>, id: int, from: nat): (r: Option<TeacherProfile>)
    requires from <= |list|
    ensures r.Some? ==> exists k :: from <= k < |list| && list[k] == r.value && r.value.id == id &&
                                    forall j :: from <= j < k ==> list[j].id != id
    ensures r.None? ==> forall k :: from <= k < |list| ==> list[k].id != id
    decreases |list| - from
  {
    if from == |list| then None
    else if list[from].id == id then Some(list[from])
    else FindFrom(list, id, from + 1)
  }

  /** `getTeacherById`: the API's record when the request succeeds (`api` is
      `Some`), and otherwise the mock teacher with that id, or the first mock
      teacher when no mock has it. */
  function GetTeacherById(teacherId: int, api: Option<TeacherProfile>): (r: TeacherProfile)
    ensures api.Some? ==> r == api.value
    ensures api.None? ==> r in MockTeachers
    ensures api.None? && (teacherId == 1 || teacherId == 2) ==> r.id == teacherId
    ensures api.None? && teacherId != 1 && teacherId != 2 ==> r == SarahJohnson
  {
    match api
    case Some(t) => t
    case None =>
      assert MockTeachers[0].id == 1 && MockTeachers[1].id == 2;
      FindOrFirst(MockTeachers, teacherId)
  }

  /** `getCurrentTeacherProfile`: the API's record, or the development profile
      when the request fails; it never fails itself. */
  function GetCurrentTeacherProfile(api: Option<TeacherProfile>): (r: TeacherProfile)
    ensures api.Some? ==> r == api.value
    ensures api.None? ==> r == SarahJohnson
  {
    api.GetOr(SarahJohnson)
  }

  /** The body `updateTeacherProfile` sends: a copy of `data` whose
      `profilePicture` is replaced by the upload URL when a picture was given
      and its upload succeeded (`upload` is `Some(url)`); a failed upload
      leaves the caller's value in place. */
  function UpdatePayload(data: TeacherUpdateData, hasPicture: bool, upload: Option<string>): (r: TeacherUpdateData)
    ensures r == data.(profilePicture := r.profilePicture)
    ensures r.profilePicture != data.profilePicture ==> hasPicture && upload.Some? && r.profilePicture == Some(upload.value)
    ensures hasPicture && upload.Some? ==> r.profilePicture == Some(upload.value)
    ensures !hasPicture || upload.None? ==> r == data
  {
    if hasPicture then
      match upload
      case Some(url) => data.(profilePicture := Some(url))
      case None => data
    else data
  }
}

=== FILE: text.dfy ===
/** The string operations the components apply to user-visible text:
    `trim`, `toLowerCase`/`toUpperCase`, `includes`, `split(" ")`/`join`,
    avatar initials, and the number/string conversions behind template
    literals and `parseInt`. */
module Text {

  import opened Base

  // ---------------------------------------------------------------------
  // Whitespace and trim
  // ---------------------------------------------------------------------

  /** The code points `String.prototype.trim` strips: the WhiteSpace and
      LineTerminator productions of ECMA-262 (sections 12.2 and 12.3), with
      the Zs category spelled out. */
  predicate IsJsSpace(c: char) {
    || c == '\t' || c == '\n' || c == '\U{000B}' || c == '\U{000C}' || c == '\r'
    || c == ' ' || c == '\U{00A0}' || c == '\U{1680}'
    || ('\U{2000}' <= c <= '\U{200A}')
    || c == '\U{2028}' || c == '\U{2029}' || c == '\U{202F}' || c == '\U{205F}'
    || c == '\U{3000}' || c == '\U{FEFF}'
  }

  /** Drops leading whitespace: the result is a suffix of `s`, everything cut
      off is whitespace, and the result does not start with whitespace. */
  function TrimStart(s: string): (r: string)
    ensures |r| <= |s| && r == s[|s| - |r|..]
    ensures forall k :: 0 <= k < |s| - |r| ==> IsJsSpace(s[k])
    ensures r != [] ==> !IsJsSpace(r[0])
  {
    if |s| > 0 && IsJsSpace(s[0]) then TrimStart(s[1..]) else s
  }

  /** Drops trailing whitespace: the result is a prefix of `s`, everything cut
      off is whitespace, and the result does not end with whitespace. */
  function TrimEnd(s: string): (r: string)
    ensures |r| <= |s| && r == s[..|r|]
    ensures forall k :: |r| <= k < |s| ==> IsJsSpace(s[k])
    ensures r != [] ==> !IsJsSpace(r[|r| - 1])
  {
    if |s| > 0 && IsJsSpace(s[|s| - 1]) then TrimEnd(s[..|s| - 1]) else s
  }

  /** `s.trim()`. */
  function Trim(s: string): string {
    TrimEnd(TrimStart(s))
  }

  /** `!s.trim()`: the text is empty once trimmed. */
  predicate IsBlank(s: string) {
    Trim(s) == ""
  }

  /** A string is blank exactly when every character of it is whitespace. */
  lemma BlankIffAllSpace(s: string)
    ensures IsBlank(s) <==> forall k :: 0 <= k < |s| ==> IsJsSpace(s[k])
  {
    var t := TrimStart(s);
    if !forall k :: 0 <= k < |s| ==> IsJsSpace(s[k]) {
      assert |t| > 0;
      assert t[0] == s[|s| - |t|];
    }
  }

  /** A string that does not start with whitespace is its own `TrimStart`. */
  lemma TrimStartKeeps(s: string)
    requires s == [] || !IsJsSpace(s[0])
    ensures TrimStart(s) == s
  {
  }

  /** A string that does not end with whitespace is its own `TrimEnd`. */
  lemma TrimEndKeeps(s: string)
    requires s == [] || !IsJsSpace(s[|s| - 1])
    ensures TrimEnd(s) == s
  {
  }

  /** Trimming keeps the inner text: the result is a contiguous slice of the
      input. */
  lemma TrimIsSlice(s: string)
    ensures exists i, j :: 0 <= i <= j <= |s| && Trim(s) == s[i..j]
  {
    var t := TrimStart(s);
    var i := |s| - |t|;
    var r := TrimEnd(t);
    assert r == t[..|r|];
    assert r == s[i..i + |r|];
  }

  /** Trimming twice is trimming once. */
  lemma TrimIsIdempotent(s: string)
    ensures Trim(Trim(s)) == Trim(s)
  {
    var t := TrimStart(s);
    var r := TrimEnd(t);
    if r != [] {
      assert r[0] == t[0];
    }
    TrimStartKeeps(r);
    TrimEndKeeps(r);
  }

  // ---------------------------------------------------------------------
  // Case mapping (ASCII letters only)
  // ---------------------------------------------------------------------

  function LowerChar(c: char): char {
    if 'A' <= c <= 'Z' then (c as int + 32) as char else c
  }

  function UpperChar(c: char): char {
    if 'a' <= c <= 'z' then (c as int - 32) as char else c
  }

  /** `s.toLowerCase()`, for the ASCII letters. */
  function Lower(s: string): (r: string)
    ensures |r| == |s|
    ensures forall k :: 0 <= k < |s| ==> r[k] == LowerChar(s[k])
  {
    seq(|s|, k requires 0 <= k < |s| => LowerChar(s[k]))
  }

  /** Lower-casing leaves no upper-case ASCII letter behind and is idempotent. */
  lemma LowerIsIdempotent(s: string)
    ensures forall k :: 0 <= k < |s| ==> !('A' <= Lower(s)[k] <= 'Z')
    ensures Lower(Lower(s)) == Lower(s)
  {
  }

  // ---------------------------------------------------------------------
  // Substring search
  // ---------------------------------------------------------------------

  predicate IsPrefix(p: string, s: string) {
    |p| <= |s| && s[..|p|] == p
  }

  /** `hay.includes(needle)`, searched from the left. */
  predicate Contains(hay: string, needle: string)
    decreases |hay|
  {
    IsPrefix(needle, hay) || (|hay| > 0 && Contains(hay[1..], needle))
  }

  /** `needle` occurs in `hay` starting at offset `i`. */
  predicate OccursAt(hay: string, needle: string, i: int) {
    0 <= i && i + |needle| <= |hay| && hay[i..i + |needle|] == needle
  }

  /** A slice of the tail is the slice of the whole one further along. */
  lemma TailSlice(hay: string, i: nat, n: nat)
    requires |hay| > 0 && i + n <= |hay| - 1
    ensures hay[1..][i..i + n] == hay[i + 1..i + 1 + n]
  {
    var a, b := hay[1..][i..i + n], hay[i + 1..i + 1 + n];
    forall k | 0 <= k < n
      ensures a[k] == b[k]
    {
    }
  }

  /** `includes` holds exactly when the needle occurs at some offset. */
  lemma {:induction false} ContainsIffOccurs(hay: string, needle: string)
    ensures Contains(hay, needle) <==> exists i :: OccursAt(hay, needle, i)
    decreases |hay|
  {
    if IsPrefix(needle, hay) {
      assert OccursAt(hay, needle, 0);
    } else if |hay| > 0 {
      ContainsIffOccurs(hay[1..], needle);
      forall i | OccursAt(hay, needle, i) && i > 0
        ensures OccursAt(hay[1..], needle, i - 1)
      {
        TailSlice(hay, i - 1, |needle|);
      }
      if Contains(hay[1..], needle) {
        var i :| OccursAt(hay[1..], needle, i);
        TailSlice(hay, i, |needle|);
        assert OccursAt(hay, needle, i + 1);
      }
    }
  }

  /** The empty needle occurs everywhere. */
  lemma ContainsEmpty(hay: string)
    ensures Contains(hay, "")
  {
    assert IsPrefix("", hay);
  }

  // ---------------------------------------------------------------------
  // split(sep) / join(sep) and avatar initials
  // ---------------------------------------------------------------------

  /** `s.split(sep)` for a one-character separator: the pieces between
      separators, always at least one (`"".split(" ")` is `[""]`). */
  function Split(s: string, sep: char): (r: seq<string>)
    ensures |r| >= 1
    ensures forall k :: 0 <= k < |r| ==> sep !in r[k]
  {
    if |s| == 0 then [""]
    else
      var rest := Split(s[1..], sep);
      if s[0] == sep then [""] + rest
      else [[s[0]] + rest[0]] + rest[1..]
  }

  /** `parts.join(sep)` with a one-character separator. */
  function Join(parts: seq<string>, sep: char): string
    requires |parts| >= 1
  {
    if |parts| == 1 then parts[0] else parts[0] + [sep] + Join(parts[1..], sep)
  }

  /** Splitting and joining on the same separator gives the text back; with the
      fact that no piece holds the separator, this pins `Split` down. */
  lemma {:induction false} JoinSplit(s: string, sep: char)
    ensures Join(Split(s, sep), sep) == s
  {
    if |s| > 0 {
      JoinSplit(s[1..], sep);
      var rest := Split(s[1..], sep);
      if s[0] == sep {
        assert Split(s, sep) == [""] + rest;
        assert Join([""] + rest, sep) == "" + [sep] + Join(rest, sep);
        assert s == [s[0]] + s[1..];
      } else {
        var parts := Split(s, sep);
        assert parts == [[s[0]] + rest[0]] + rest[1..];
        if |rest| == 1 {
          assert Join(parts, sep) == [s[0]] + rest[0];
        } else {
          assert parts[1..] == rest[1..];
          assert Join(rest, sep) == rest[0] + [sep] + Join(rest[1..], sep);
        }
        assert s == [s[0]] + s[1..];
      }
    }
  }

  /** The first character of each piece, empty pieces contributing nothing
      (`n[0]` of `""` is `undefined`, which `join("")` renders as nothing). */
  function FirstChars(pieces: seq<string>): string {
    if |pieces| == 0 then ""
    else (if pieces[0] == "" then "" else [pieces[0][0]]) + FirstChars(pieces[1..])
  }

  /** `name.split(" ").map((n) => n[0]).join("")`. */
  function Initials(name: string): string {
    FirstChars(Split(name, ' '))
  }

  /** Reference definition of the initials by a left-to-right scan: the
      characters that are not a space and sit at the start of the text or
      right after a space. `afterSpace` says whether the previous character
      was a space (or there was none). */
  function WordStarts(s: string, afterSpace: bool): (r: string)
    ensures |r| <= |s|
  {
    if |s| == 0 then ""
    else (if s[0] != ' ' && afterSpace then [s[0]] else "") + WordStarts(s[1..], s[0] == ' ')
  }

  lemma {:induction false} FirstCharsAppend(a: seq<string>, b: seq<string>)
    ensures FirstChars(a + b) == FirstChars(a) + FirstChars(b)
  {
    if |a| > 0 {
      FirstCharsAppend(a[1..], b);
      assert (a + b)[1..] == a[1..] + b;
      var h := if a[0] == "" then "" else [a[0][0]];
      calc {
        FirstChars(a + b);
        h + FirstChars(a[1..] + b);
        h + (FirstChars(a[1..]) + FirstChars(b));
        (h + FirstChars(a[1..])) + FirstChars(b);
      }
    } else {
      assert a + b == b;
    }
  }

  lemma {:induction false} SplitScan(s: string)
    ensures FirstChars(Split(s, ' ')) == WordStarts(s, true)
    ensures FirstChars(Split(s, ' ')[1..]) == WordStarts(s, false)
  {
    if |s| > 0 {
      SplitScan(s[1..]);
      var rest := Split(s[1..], ' ');
      if s[0] == ' ' {
        assert Split(s, ' ') == [""] + rest;
        assert Split(s, ' ')[1..] == rest;
        FirstCharsAppend([""], rest);
      } else {
        var parts := Split(s, ' ');
        assert parts == [[s[0]] + rest[0]] + rest[1..];
        assert parts[1..] == rest[1..];
        FirstCharsAppend([[s[0]] + rest[0]], rest[1..]);
        FirstCharsAppend([rest[0]], rest[1..]);
        assert rest == [rest[0]] + rest[1..];
      }
    }
  }

  /** The avatar initials are exactly the first letters of the space-separated
      words: the non-space characters at the start of the name or right after
      a space, in order. */
  lemma InitialsAreWordStarts(name: string)
    ensures Initials(name) == WordStarts(name, true)
    ensures |Initials(name)| <= |name|
  {
    SplitScan(name);
  }

  // ---------------------------------------------------------------------
  // Numbers as decimal text
  // ---------------------------------------------------------------------

  predicate IsDigit(c: char) {
    '0' <= c <= '9'
  }

  function DigitChar(d: nat): char
    requires d < 10
  {
    ('0' as int + d) as char
  }

  function DigitValue(c: char): nat
    requires IsDigit(c)
  {
    c as int - '0' as int
  }

  /** Decimal rendering of a natural number without leading zeros, as a
      template literal prints it. */
  function NatToString(n: nat): (r: string)
    ensures |r| >= 1
    ensures forall k :: 0 <= k < |r| ==> IsDigit(r[k])
  {
    if n < 10 then [DigitChar(n)] else NatToString(n / 10) + [DigitChar(n % 10)]
  }

  /** Decimal rendering of an integer (`${n}` for an integral number). */
  function IntToString(n: int): string {
    if n < 0 then "-" + NatToString(-n) else NatToString(n)
  }

  /** The value of a string of decimal digits. */
  function DigitsValue(s: string): nat
    requires forall k :: 0 <= k < |s| ==> IsDigit(s[k])
  {
    if |s| == 0 then 0
    else DigitsValue(s[..|s| - 1]) * 10 + DigitValue(s[|s| - 1])
  }

  /** The longest prefix of `s` made of decimal digits. */
  function DigitPrefix(s: string): (r: string)
    ensures |r| <= |s| && r == s[..|r|]
    ensures forall k :: 0 <= k < |r| ==> IsDigit(r[k])
    ensures |r| < |s| ==> !IsDigit(s[|r|])
  {
    if |s| > 0 && IsDigit(s[0]) then [s[0]] + DigitPrefix(s[1..]) else ""
  }

  /** `parseInt(s)` restricted to decimal digits (the `0x` prefix that
      `parseInt` without a radix also accepts is not modelled): skip leading
      whitespace, read an optional sign, then the longest run of digits; no
      digits is `NaN` (`None`). */
  function ParseInt(s: string): Option<int> {
    var t := TrimStart(s);
    var negative := |t| > 0 && t[0] == '-';
    var body := if |t| > 0 && (t[0] == '-' || t[0] == '+') then t[1..] else t;
    var digits := DigitPrefix(body);
    if digits == "" then None
    else if negative then Some(-(DigitsValue(digits) as int))
    else Some(DigitsValue(digits))
  }

  lemma {:induction false} DigitsValueOfNatToString(n: nat)
    ensures DigitsValue(NatToString(n)) == n
  {
    if n >= 10 {
      DigitsValueOfNatToString(n / 10);
      var s := NatToString(n);
      assert s[..|s| - 1] == NatToString(n / 10);
    }
  }

  /** `parseInt` reads back the decimal rendering of any natural number, so an
      object key produced from a numeric id parses to that id. */
  lemma ParseIntOfNatToString(n: nat)
    ensures ParseInt(NatToString(n)) == Some(n)
  {
    var s := NatToString(n);
    assert !IsJsSpace(s[0]);
    assert TrimStart(s) == s;
    assert DigitPrefix(s) == s;
    DigitsValueOfNatToString(n);
  }
}

=== FILE: tutor_dashboard.dfy ===
/** The tutor dashboard page as a small state machine: its state, the two
    effects that start the profile and meeting requests or redirect, the
    completions of those requests, and the choice of view from the state. */
module TutorDashboard {

  import opened Base
  import opened Teachers

  datatype TDUser = TDUser(id: int, role: string)

  /** The page's state: the profile read, whether it is still loading, the
      error text, and the number of pending meetings. */
  datatype TDState = TDState(tutorData: Option<TeacherProfile>, loading: bool, error: Option<string>, upcoming: int)

  /** `useState(null)`, `useState(true)`, `useState(null)`, `useState(0)`. */
  const Initial := TDState(None, true, None, 0)

  const LoadError := "Failed to load profile"

  /** What the data effect starts: the two requests, or nothing. */
  datatype Requests = Requests(profile: bool, pendingMeetings: bool)

  /** The data effect: a teacher's visit starts the profile and the
      pending-meeting requests and leaves the state alone; any other visit
      starts nothing and ends loading at once. */
  function StartEffect(user: Option<TDUser>, st: TDState): (r: (Requests, TDState))
    ensures user.Some? && user.value.role == "teacher" ==> r == (Requests(true, true), st)
    ensures user.None? || user.value.role != "teacher" ==>
              r.0 == Requests(false, false) && r.1 == st.(loading := false)
  {
    if user.Some? && user.value.role == "teacher" then (Requests(true, true), st)
    else (Requests(false, false), st.(loading := false))
  }

  /** The redirect effect: `/dashboard` for a signed-in user who is not a
      teacher, nowhere otherwise. */
  function RedirectTarget(user: Option<TDUser>): (r: Option<string>)
    ensures r.Some? <==> user.Some? && user.value.role != "teacher"
    ensures r.Some? ==> r.value == "/dashboard"
  {
    if user.Some? && user.value.role != "teacher" then Some("/dashboard") else None
  }

  /** How a request the data effect started completes. `ProfileLoaded` carries
      the API's answer to `getCurrentTeacherProfile` (`None` for a failed
      request, which that function answers with its development profile);
      `ProfileRejected` is a rejection of the whole call. */
  datatype Completion =
    | ProfileLoaded(api: Option<TeacherProfile>)
    | ProfileRejected
    | MeetingsLoaded(pending: nat)
    | MeetingsRejected

  /** The `.then`/`.catch`/`.finally` handlers. */
  function Complete(st: TDState, c: Completion): (r: TDState)
    ensures c.ProfileLoaded? ==>
              r == st.(tutorData := Some(GetCurrentTeacherProfile(c.api)), loading := false)
    ensures c.ProfileRejected? ==> r == st.(error := Some(LoadError), loading := false)
    ensures c.MeetingsLoaded? ==> r == st.(upcoming := c.pending)
    ensures c.MeetingsRejected? ==> r == st.(upcoming := 0)
  {
    match c
    case ProfileLoaded(api) => st.(tutorData := Some(GetCurrentTeacherProfile(api)), loading := false)
    case ProfileRejected => st.(error := Some(LoadError), loading := false)
    case MeetingsLoaded(n) => st.(upcoming := n)
    case MeetingsRejected => st.(upcoming := 0)
  }

  /** The two requests race; their completions touch disjoint parts of the
      state, so the order in which they arrive does not matter. */
  lemma CompletionsCommute(st: TDState, p: Completion, m: Completion)
    requires p.ProfileLoaded? || p.ProfileRejected?
    requires m.MeetingsLoaded? || m.MeetingsRejected?
    ensures Complete(Complete(st, p), m) == Complete(Complete(st, m), p)
  {
  }

  /** What the page renders. */
  datatype TDView =
    | Blank
    | LoadingText
    | MessageText(text: string)
    | Ready(name: string, initial: string, reviews: int, upcoming: int)

  function View(user: Option<TDUser>, st: TDState): (r: TDView)
    ensures user.None? || user.value.role != "teacher" <==> r.Blank?
    ensures r.LoadingText? <==> user.Some? && user.value.role == "teacher" && st.loading
    ensures r.MessageText? ==> !st.loading && (TruthyOptStr(st.error) || st.tutorData.None?)
    ensures r.MessageText? ==>
              r.text == (if TruthyOptStr(st.error) then st.error.value else "No data found")
    ensures r.Ready? <==>
              user.Some? && user.value.role == "teacher" && !st.loading &&
              !TruthyOptStr(st.error) && st.tutorData.Some?
    ensures r.Ready? ==>
              && r.name == OrStr(st.tutorData.value.username, "Tutor")
              && r.upcoming == st.upcoming
              && r.reviews == OrInt(st.tutorData.value.totalReviews, 0)
  {
    match user
    case None => Blank
    case Some(u) =>
      if u.role != "teacher" then Blank
      else if st.loading then LoadingText
      else if TruthyOptStr(st.error) || st.tutorData.None? then
        MessageText(OrStr(st.error, "No data found"))
      else
        var p := st.tutorData.value;
        var initialSource := OrStr(p.username, "T");
        Ready(OrStr(p.username, "Tutor"), initialSource[..1], OrInt(p.totalReviews, 0), st.upcoming)
  }

  /** The avatar initial is the first character of the displayed name: the
      username's when it is non-empty, and "T" of "Tutor" otherwise. */
  lemma InitialIsFirstOfName(user: Option<TDUser>, st: TDState)
    requires View(user, st).Ready?
    ensures |View(user, st).name| > 0
    ensures View(user, st).initial == View(user, st).name[..1]
  {
  }

  /** A teacher whose profile request fails still sees the ready dashboard,
      under the development profile's name, with the pending-meeting count
      that arrived (or 0 when that request failed too). */
  lemma FailedProfileRequestShowsDevelopmentProfile(u: TDUser, m: Completion)
    requires u.role == "teacher"
    requires m.MeetingsLoaded? || m.MeetingsRejected?
    ensures var st := Complete(Complete(StartEffect(Some(u), Initial).1, ProfileLoaded(None)), m);
            View(Some(u), st) ==
              Ready("Dr. Sarah Johnson", "D", 124, if m.MeetingsLoaded? then m.pending else 0)
  {
  }

  /** A user who is not a teacher sees nothing, starts no request, is not
      left loading, and is redirected to the student dashboard. */
  lemma NonTeacherIsRedirected(u: TDUser)
    requires u.role != "teacher"
    ensures StartEffect(Some(u), Initial).0 == Requests(false, false)
    ensures !StartEffect(Some(u), Initial).1.loading
    ensures View(Some(u), StartEffect(Some(u), Initial).1) == Blank
    ensures RedirectTarget(Some(u)) == Some("/dashboard")
  {
  }
}

=== FILE: tutor_list.dfy ===
/** The tutor directory search: the filter-and-sort rule the tutor list
    re-applies whenever the tutor list, the search filters, the sort choice or
    the user map changes. The fetched data are inputs; the rule is pure. */
module TutorSearch {

  import opened Base
  import opened Text
  import opened Seqs
  import opened Teachers

  /** A platform user, as far as the tutor list reads it. */
  datatype User = User(id: int, username: string)

  /** The optional name and subject terms typed into the search form. */
  datatype SearchFilters = SearchFilters(name: Option<string>, subject: Option<string>)

  /** The four sort choices that reorder the list; "recommended" and any other
      value keep the filtered order. */
  datatype SortOrder = RatingHigh | PriceLow | PriceHigh | Experience

  // ---------------------------------------------------------------------
  // The user map
  // ---------------------------------------------------------------------

  /** `users[k]` carries `id` and no later user does. */
  predicate IsLastWithId(users: seq<User>, k: int, id: int) {
    0 <= k < |users| && users[k].id == id && forall j :: k < j < |users| ==> users[j].id != id
  }

  /** The user map the tutor list builds with `users.forEach(user => {
      map[user.id] = user })`. */
  function BuildUserMap(users: seq<User>): map<int, User> {
    if |users| == 0 then map[]
    else BuildUserMap(users[..|users| - 1])[users[|users| - 1].id := users[|users| - 1]]
  }

  /** Exactly the ids of the users are keys of the map. */
  lemma {:induction false} BuildUserMapKeys(users: seq<User>)
    ensures forall id :: id in BuildUserMap(users) <==> exists k :: 0 <= k < |users| && users[k].id == id
  {
    if |users| > 0 {
      var n := |users| - 1;
      var prev := BuildUserMap(users[..n]);
      BuildUserMapKeys(users[..n]);
      assert BuildUserMap(users).Keys == prev.Keys + {users[n].id};
      forall id | exists k :: 0 <= k < |users| && users[k].id == id
        ensures id in BuildUserMap(users)
      {
        var k :| 0 <= k < |users| && users[k].id == id;
        if k < n {
          assert users[..n][k].id == id;
        }
      }
      forall id | id in prev
        ensures exists k :: 0 <= k < |users| && users[k].id == id
      {
        var k :| 0 <= k < |users[..n]| && users[..n][k].id == id;
        assert users[k].id == id;
      }
    }
  }

  /** Each key maps to the last user carrying it: a later user overwrites an
      earlier one. */
  lemma {:induction false} BuildUserMapLastWins(users: seq<User>)
    ensures forall id :: id in BuildUserMap(users) ==>
              exists k :: IsLastWithId(users, k, id) && users[k] == BuildUserMap(users)[id]
  {
    if |users| > 0 {
      var n := |users| - 1;
      var prev := BuildUserMap(users[..n]);
      var m := BuildUserMap(users);
      BuildUserMapLastWins(users[..n]);
      assert m == prev[users[n].id := users[n]];
      assert IsLastWithId(users, n, users[n].id);
      forall id | id in m && id != users[n].id
        ensures exists k :: IsLastWithId(users, k, id) && users[k] == m[id]
      {
        assert id in prev && m[id] == prev[id];
        var k :| IsLastWithId(users[..n], k, id) && users[..n][k] == prev[id];
        assert IsLastWithId(users, k, id);
      }
    }
  }

  /** A tutor that shows no username of its own but names a user. */
  predicate NeedsLookup(t: TeacherProfile) {
    !TruthyOptStr(t.username) && t.userId != 0
  }

  /** The user map after loading: built from the fetched users only when some
      tutor needs a lookup and the user fetch succeeded (`users` is `Some`);
      otherwise the initial empty map stays. */
  function UserMapAfterLoad(tutors: seq<TeacherProfile>, users: Option<seq<User>>): (m: map<int, User>)
    ensures (forall k :: 0 <= k < |tutors| ==> !NeedsLookup(tutors[k])) ==> m == map[]
    ensures users.None? ==> m == map[]
    ensures users.Some? && (exists k :: 0 <= k < |tutors| && NeedsLookup(tutors[k])) ==>
              m == BuildUserMap(users.value)
  {
    if users.Some? && exists k :: 0 <= k < |tutors| && NeedsLookup(tutors[k])
    then BuildUserMap(users.value)
    else map[]
  }

  // ---------------------------------------------------------------------
  // Filtering
  // ---------------------------------------------------------------------

  /** The name a tutor is searched by: its own username, else the username of
      its user in the map (when it names one), else "Teacher <id>". */
  function DisplayName(t: TeacherProfile, userMap: map<int, User>): (r: string)
    ensures r != ""
    ensures TruthyOptStr(t.username) ==> r == t.username.value
  {
    if TruthyOptStr(t.username) then t.username.value
    else if t.userId != 0 && t.userId in userMap && TruthyStr(userMap[t.userId].username)
    then userMap[t.userId].username
    else "Teacher " + IntToString(t.id)
  }

  /** The active search term of an optional filter: absent, empty or blank
      text means no filter; otherwise the trimmed, lower-cased text. */
  function Term(filter: Option<string>): (r: Option<string>)
    ensures r.None? <==> filter.None? || IsBlank(filter.value)
    ensures r.Some? ==> r.value == Lower(Trim(filter.value)) && r.value != ""
  {
    match filter
    case None => None
    case Some(s) => if IsBlank(s) then None else Some(Lower(Trim(s)))
  }

  predicate MatchesName(t: TeacherProfile, userMap: map<int, User>, term: string) {
    Contains(Lower(DisplayName(t, userMap)), term)
  }

  predicate MatchesSubject(t: TeacherProfile, term: string) {
    t.subjects.Some? && |t.subjects.value| > 0 &&
    exists k :: 0 <= k < |t.subjects.value| && Contains(Lower(t.subjects.value[k].name), term)
  }

  /** The callbacks handed to `filter`. */
  function NameKeep(userMap: map<int, User>, term: string): TeacherProfile -> bool {
    t => MatchesName(t, userMap, term)
  }

  function SubjectKeep(term: string): TeacherProfile -> bool {
    t => MatchesSubject(t, term)
  }

  /** The name filter: every tutor when the name term is inactive, else the
      tutors whose display name matches, in their order. */
  function ByName(tutors: seq<TeacherProfile>, filters: SearchFilters, userMap: map<int, User>): (r: seq<TeacherProfile>)
    ensures multiset(r) <= multiset(tutors)
    ensures Term(filters.name).None? ==> r == tutors
    ensures Term(filters.name).Some? ==>
              forall t :: t in r <==> t in tutors && MatchesName(t, userMap, Term(filters.name).value)
  {
    match Term(filters.name)
    case None => tutors
    case Some(term) =>
      FilterSubMultiset(tutors, NameKeep(userMap, term));
      FilterMembers(tutors, NameKeep(userMap, term));
      Filter(tutors, NameKeep(userMap, term))
  }

  /** The subject filter: every tutor when the subject term is inactive, else
      the tutors with a matching subject, in their order. */
  function BySubject(tutors: seq<TeacherProfile>, filters: SearchFilters): (r: seq<TeacherProfile>)
    ensures multiset(r) <= multiset(tutors)
    ensures Term(filters.subject).None? ==> r == tutors
    ensures Term(filters.subject).Some? ==>
              forall t :: t in r <==> t in tutors && MatchesSubject(t, Term(filters.subject).value)
  {
    match Term(filters.subject)
    case None => tutors
    case Some(term) =>
      FilterSubMultiset(tutors, SubjectKeep(term));
      FilterMembers(tutors, SubjectKeep(term));
      Filter(tutors, SubjectKeep(term))
  }

  /** Whether a tutor survives both filters. */
  predicate Passes(t: TeacherProfile, filters: SearchFilters, userMap: map<int, User>) {
    && (Term(filters.name).None? || MatchesName(t, userMap, Term(filters.name).value))
    && (Term(filters.subject).None? || MatchesSubject(t, Term(filters.subject).value))
  }

  function PassesFn(filters: SearchFilters, userMap: map<int, User>): TeacherProfile -> bool {
    t => Passes(t, filters, userMap)
  }

  /** The name filter, then the subject filter, applied to a copy of the list:
      the same as one pass that keeps the tutors passing both, so the passing
      tutors keep their order and every copy, and no other tutor remains. */
  function Filtered(all: seq<TeacherProfile>, filters: SearchFilters, userMap: map<int, User>): (r: seq<TeacherProfile>)
    ensures r == Filter(all, PassesFn(filters, userMap))
    ensures forall t :: multiset(r)[t] == if Passes(t, filters, userMap) then multiset(all)[t] else 0
    ensures multiset(r) <= multiset(all)
    ensures forall t :: t in r <==> t in all && Passes(t, filters, userMap)
  {
    var pf := PassesFn(filters, userMap);
    FiltersComposeToOnePass(all, filters, userMap);
    assert forall t :: multiset(Filter(all, pf))[t] == if Passes(t, filters, userMap) then multiset(all)[t] else 0 by {
      forall t ensures multiset(Filter(all, pf))[t] == if Passes(t, filters, userMap) then multiset(all)[t] else 0 {
        FilterCount(all, pf, t);
      }
    }
    FilterSubMultiset(all, pf);
    FilterMembers(all, pf);
    BySubject(ByName(all, filters, userMap), filters)
  }

  /** The two filters in a row keep the same tutors, in the same order, as a
      single filter by `Passes`. */
  lemma FiltersComposeToOnePass(all: seq<TeacherProfile>, filters: SearchFilters, userMap: map<int, User>)
    ensures BySubject(ByName(all, filters, userMap), filters) == Filter(all, PassesFn(filters, userMap))
  {
    var pf := PassesFn(filters, userMap);
    match (Term(filters.name), Term(filters.subject))
    case (None, None) =>
      FilterKeepsAll(all, pf);
    case (Some(n), None) =>
      FilterExt(all, NameKeep(userMap, n), pf);
    case (None, Some(b)) =>
      FilterExt(all, SubjectKeep(b), pf);
    case (Some(n), Some(b)) =>
      FilterFilter(all, NameKeep(userMap, n), SubjectKeep(b), pf);
  }

  // ---------------------------------------------------------------------
  // Sorting
  // ---------------------------------------------------------------------

  /** The sort choice named by the select box, if it is one of the four that
      reorder the list. */
  function ParseSortBy(sortBy: string): (r: Option<SortOrder>)
    ensures r.None? <==> sortBy !in {"rating-high", "price-low", "price-high", "experience"}
  {
    if sortBy == "rating-high" then Some(RatingHigh)
    else if sortBy == "price-low" then Some(PriceLow)
    else if sortBy == "price-high" then Some(PriceHigh)
    else if sortBy == "experience" then Some(Experience)
    else None
  }

  /** `average_rating || 0`. */
  function RatingKey(t: TeacherProfile): real {
    OrZero(t.averageRating)
  }

  /** The first subject's hourly rate, or 0 without subjects. */
  function RateKey(t: TeacherProfile): real {
    if t.subjects.Some? && |t.subjects.value| > 0 then t.subjects.value[0].hourlyRate else 0.0
  }

  /** `years_of_experience || 0`. */
  function ExperienceKey(t: TeacherProfile): real {
    OrZero(t.yearsOfExperience)
  }

  /** The value a sort order compares. */
  function KeyValue(order: SortOrder, t: TeacherProfile): real {
    match order
    case RatingHigh => RatingKey(t)
    case PriceLow => RateKey(t)
    case PriceHigh => RateKey(t)
    case Experience => ExperienceKey(t)
  }

  /** The comparator handed to `Array.prototype.sort`: negative or zero means
      `a` may stay before `b`. */
  function Compare(order: SortOrder, a: TeacherProfile, b: TeacherProfile): real {
    match order
    case RatingHigh => RatingKey(b) - RatingKey(a)
    case PriceLow => RateKey(a) - RateKey(b)
    case PriceHigh => RateKey(b) - RateKey(a)
    case Experience => ExperienceKey(b) - ExperienceKey(a)
  }

  /** Every earlier element compares at most zero against every later one. */
  ghost predicate SortedBy(order: SortOrder, s: seq<TeacherProfile>) {
    forall i, j :: 0 <= i < j < |s| ==> Compare(order, s[i], s[j]) <= 0.0
  }

  /** The elements of `s` whose sort value is `v`, in their order in `s`. */
  function SameKey(order: SortOrder, s: seq<TeacherProfile>, v: real): seq<TeacherProfile> {
    if |s| == 0 then []
    else (if KeyValue(order, s[0]) == v then [s[0]] else []) + SameKey(order, s[1..], v)
  }

  /** Places `x` before the first element it does not compare above. */
  function Insert(order: SortOrder, x: TeacherProfile, s: seq<TeacherProfile>): seq<TeacherProfile> {
    if |s| == 0 || Compare(order, x, s[0]) <= 0.0 then [x] + s
    else [s[0]] + Insert(order, x, s[1..])
  }

  /** Insertion sort: sort the tail, then insert the head in front of the
      elements it does not compare above. Stable, as section 23.1.3.30 of
      ECMA-262 (2024) requires of `Array.prototype.sort`. */
  function StableSort(order: SortOrder, s: seq<TeacherProfile>): seq<TeacherProfile> {
    if |s| == 0 then [] else Insert(order, s[0], StableSort(order, s[1..]))
  }

  lemma {:induction false} InsertPermutes(order: SortOrder, x: TeacherProfile, s: seq<TeacherProfile>)
    ensures multiset(Insert(order, x, s)) == multiset(s) + multiset{x}
  {
    if |s| > 0 && Compare(order, x, s[0]) > 0.0 {
      InsertPermutes(order, x, s[1..]);
      assert s == [s[0]] + s[1..];
    }
  }

  /** The elements of an insertion are the inserted tutor and the list's. */
  lemma {:induction false} InsertMembers(order: SortOrder, x: TeacherProfile, s: seq<TeacherProfile>)
    ensures forall y :: y in Insert(order, x, s) <==> y == x || y in s
  {
    if |s| > 0 && Compare(order, x, s[0]) > 0.0 {
      InsertMembers(order, x, s[1..]);
      assert s == [s[0]] + s[1..];
    }
  }

  lemma {:induction false} InsertKeepsSorted(order: SortOrder, x: TeacherProfile, s: seq<TeacherProfile>)
    requires SortedBy(order, s)
    ensures SortedBy(order, Insert(order, x, s))
  {
    if |s| > 0 && Compare(order, x, s[0]) > 0.0 {
      var tail := s[1..];
      assert SortedBy(order, tail);
      InsertKeepsSorted(order, x, tail);
      InsertMembers(order, x, tail);
      var r := Insert(order, x, tail);
      forall j | 0 <= j < |r|
        ensures Compare(order, s[0], r[j]) <= 0.0
      {
        if r[j] != x {
          assert r[j] in tail;
          var k :| 0 <= k < |tail| && tail[k] == r[j];
          assert s[k + 1] == r[j];
        }
      }
      var res := [s[0]] + r;
      assert Insert(order, x, s) == res;
      forall i, j | 0 <= i < j < |res|
        ensures Compare(order, res[i], res[j]) <= 0.0
      {
        assert res[j] == r[j - 1];
        if i > 0 {
          assert res[i] == r[i - 1];
        }
      }
    }
  }

  /** Inserting puts `x` in front of the elements with its own sort value. */
  lemma {:induction false} InsertSameKey(order: SortOrder, x: TeacherProfile, s: seq<TeacherProfile>, v: real)
    ensures SameKey(order, Insert(order, x, s), v) ==
            (if KeyValue(order, x) == v then [x] else []) + SameKey(order, s, v)
  {
    if |s| > 0 && Compare(order, x, s[0]) > 0.0 {
      InsertSameKey(order, x, s[1..], v);
      assert KeyValue(order, x) != KeyValue(order, s[0]);
    } else {
      assert ([x] + s)[1..] == s;
    }
  }

  /** The sort returns a sorted permutation of its input. */
  lemma {:induction false} StableSortSortsAndPermutes(order: SortOrder, s: seq<TeacherProfile>)
    ensures SortedBy(order, StableSort(order, s))
    ensures multiset(StableSort(order, s)) == multiset(s)
  {
    if |s| > 0 {
      StableSortSortsAndPermutes(order, s[1..]);
      InsertKeepsSorted(order, s[0], StableSort(order, s[1..]));
      InsertPermutes(order, s[0], StableSort(order, s[1..]));
      assert s == [s[0]] + s[1..];
    }
  }

  /** The sort is stable: the tutors sharing any one sort value appear in the
      output in the order they had in the input. */
  lemma {:induction false} StableSortIsStable(order: SortOrder, s: seq<TeacherProfile>, v: real)
    ensures SameKey(order, StableSort(order, s), v) == SameKey(order, s, v)
  {
    if |s| > 0 {
      StableSortIsStable(order, s[1..], v);
      InsertSameKey(order, s[0], StableSort(order, s[1..]), v);
    }
  }

  lemma {:induction false} SameKeyMembers(order: SortOrder, s: seq<TeacherProfile>, v: real, x: TeacherProfile)
    ensures x in SameKey(order, s, v) <==> x in s && KeyValue(order, x) == v
  {
    if |s| > 0 {
      SameKeyMembers(order, s[1..], v, x);
      assert s == [s[0]] + s[1..];
    }
  }

  lemma SameKeyHead(order: SortOrder, s: seq<TeacherProfile>)
    requires |s| > 0
    ensures SameKey(order, s, KeyValue(order, s[0])) == [s[0]] + SameKey(order, s[1..], KeyValue(order, s[0]))
  {
  }

  /** Two sorted arrangements with the same groups start with the same element. */
  lemma SortedSameGroupsSameHead(order: SortOrder, a: seq<TeacherProfile>, b: seq<TeacherProfile>)
    requires SortedBy(order, a) && SortedBy(order, b) && |a| > 0 && |b| > 0
    requires forall v :: SameKey(order, a, v) == SameKey(order, b, v)
    ensures a[0] == b[0]
  {
    var va, vb := KeyValue(order, a[0]), KeyValue(order, b[0]);
    SameKeyMembers(order, a, va, a[0]);
    SameKeyMembers(order, b, va, a[0]);
    SameKeyMembers(order, b, vb, b[0]);
    SameKeyMembers(order, a, vb, b[0]);
    var i :| 0 <= i < |b| && b[i] == a[0];
    var j :| 0 <= j < |a| && a[j] == b[0];
    assert i == 0 || Compare(order, b[0], b[i]) <= 0.0;
    assert j == 0 || Compare(order, a[0], a[j]) <= 0.0;
    assert va == vb;
    SameKeyHead(order, a);
    SameKeyHead(order, b);
    assert SameKey(order, a, va)[0] == a[0];
    assert SameKey(order, b, va)[0] == b[0];
  }

  /** Removing the same first element from both keeps the groups equal. */
  lemma SameGroupsTail(order: SortOrder, a: seq<TeacherProfile>, b: seq<TeacherProfile>, w: real)
    requires |a| > 0 && |b| > 0 && a[0] == b[0]
    requires SameKey(order, a, w) == SameKey(order, b, w)
    ensures SameKey(order, a[1..], w) == SameKey(order, b[1..], w)
  {
    var h := if KeyValue(order, a[0]) == w then [a[0]] else [];
    assert SameKey(order, a, w) == h + SameKey(order, a[1..], w);
    assert SameKey(order, b, w) == h + SameKey(order, b[1..], w);
    assert (h + SameKey(order, a[1..], w))[|h|..] == SameKey(order, a[1..], w);
    assert (h + SameKey(order, b[1..], w))[|h|..] == SameKey(order, b[1..], w);
  }

  /** Sortedness plus stability pin the order down: two sorted arrangements
      that agree on the order within every group of equal sort values are the
      same sequence. Any stable sort with this comparator therefore returns
      exactly what `StableSort` returns. */
  lemma {:induction false} StableSortedIsUnique(order: SortOrder, a: seq<TeacherProfile>, b: seq<TeacherProfile>)
    requires SortedBy(order, a) && SortedBy(order, b)
    requires forall v :: SameKey(order, a, v) == SameKey(order, b, v)
    ensures a == b
  {
    if |a| == 0 {
      if |b| > 0 {
        SameKeyMembers(order, b, KeyValue(order, b[0]), b[0]);
      }
    } else if |b| == 0 {
      SameKeyMembers(order, a, KeyValue(order, a[0]), a[0]);
    } else {
      SortedSameGroupsSameHead(order, a, b);
      forall w
        ensures SameKey(order, a[1..], w) == SameKey(order, b[1..], w)
      {
        SameGroupsTail(order, a, b, w);
      }
      assert SortedBy(order, a[1..]) && SortedBy(order, b[1..]);
      StableSortedIsUnique(order, a[1..], b[1..]);
      assert a == [a[0]] + a[1..];
      assert b == [b[0]] + b[1..];
    }
  }

  // ---------------------------------------------------------------------
  // The search
  // ---------------------------------------------------------------------

  /** The list the directory shows: the filtered copy of `all`, stably sorted
      when the sort choice is one of the four, otherwise in its original
      order. */
  function Search(all: seq<TeacherProfile>, filters: SearchFilters, sortBy: string, userMap: map<int, User>): (r: seq<TeacherProfile>)
    ensures multiset(r) <= multiset(all)
    ensures forall t :: multiset(r)[t] == if Passes(t, filters, userMap) then multiset(all)[t] else 0
    ensures forall t :: t in r <==> t in all && Passes(t, filters, userMap)
    ensures ParseSortBy(sortBy).None? ==> r == Filter(all, PassesFn(filters, userMap))
    ensures ParseSortBy(sortBy).None? ==> r == Filtered(all, filters, userMap)
    ensures ParseSortBy(sortBy).Some? ==>
              SortedBy(ParseSortBy(sortBy).value, r) &&
              multiset(r) == multiset(Filtered(all, filters, userMap)) &&
              forall v :: SameKey(ParseSortBy(sortBy).value, r, v) ==
                          SameKey(ParseSortBy(sortBy).value, Filtered(all, filters, userMap), v)
  {
    var filtered := Filtered(all, filters, userMap);
    match ParseSortBy(sortBy)
    case None => filtered
    case Some(order) =>
      StableSortSortsAndPermutes(order, filtered);
      assert forall v :: SameKey(order, StableSort(order, filtered), v) == SameKey(order, filtered, v) by {
        forall v ensures SameKey(order, StableSort(order, filtered), v) == SameKey(order, filtered, v) {
          StableSortIsStable(order, filtered, v);
        }
      }
      assert forall t :: t in StableSort(order, filtered) <==> t in multiset(filtered);
      StableSort(order, filtered)
  }

  /** Sortedness under the comparator, read as the order of the sort values:
      non-decreasing for "price-low", non-increasing for the other three. */
  lemma SortedMeansKeyOrder(order: SortOrder, r: seq<TeacherProfile>)
    requires SortedBy(order, r)
    ensures order == PriceLow ==>
              forall i, j :: 0 <= i < j < |r| ==> KeyValue(order, r[i]) <= KeyValue(order, r[j])
    ensures order != PriceLow ==>
              forall i, j :: 0 <= i < j < |r| ==> KeyValue(order, r[i]) >= KeyValue(order, r[j])
  {
    forall i, j | 0 <= i < j < |r|
      ensures order == PriceLow ==> KeyValue(order, r[i]) <= KeyValue(order, r[j])
      ensures order != PriceLow ==> KeyValue(order, r[i]) >= KeyValue(order, r[j])
    {
      assert Compare(order, r[i], r[j]) <= 0.0;
    }
  }

  /** "experience" is the fourth label; it differs from "price-high", which
      has the same length, in its first character. */
  lemma ExperienceIsRecognised()
    ensures ParseSortBy("experience") == Some(Experience)
  {
    assert "experience"[0] != "price-high"[0];
  }

  /** A recognised sort choice leaves the shown list sorted by its order. */
  lemma SearchIsSortedBy(order: SortOrder, all: seq<TeacherProfile>, filters: SearchFilters, sortBy: string, userMap: map<int, User>)
    requires ParseSortBy(sortBy) == Some(order)
    ensures SortedBy(order, Search(all, filters, sortBy, userMap))
  {
  }

  /** Under "rating-high" the ratings never increase down the list (a missing
      rating counts as 0). */
  lemma SearchByRating(all: seq<TeacherProfile>, filters: SearchFilters, userMap: map<int, User>)
    ensures var r := Search(all, filters, "rating-high", userMap);
            forall i, j :: 0 <= i < j < |r| ==> RatingKey(r[i]) >= RatingKey(r[j])
  {
    assert ParseSortBy("rating-high") == Some(RatingHigh);
    SearchIsSortedBy(RatingHigh, all, filters, "rating-high", userMap);
    SortedMeansKeyOrder(RatingHigh, Search(all, filters, "rating-high", userMap));
  }

  /** Under "price-low" the first subject's rate never decreases down the list,
      and under "price-high" it never increases (no subjects counts as 0). */
  lemma SearchByPrice(all: seq<TeacherProfile>, filters: SearchFilters, userMap: map<int, User>)
    ensures var r := Search(all, filters, "price-low", userMap);
            forall i, j :: 0 <= i < j < |r| ==> RateKey(r[i]) <= RateKey(r[j])
    ensures var r := Search(all, filters, "price-high", userMap);
            forall i, j :: 0 <= i < j < |r| ==> RateKey(r[i]) >= RateKey(r[j])
  {
    assert ParseSortBy("price-low") == Some(PriceLow);
    SearchIsSortedBy(PriceLow, all, filters, "price-low", userMap);
    SortedMeansKeyOrder(PriceLow, Search(all, filters, "price-low", userMap));
    assert ParseSortBy("price-high") == Some(PriceHigh);
    SearchIsSortedBy(PriceHigh, all, filters, "price-high", userMap);
    SortedMeansKeyOrder(PriceHigh, Search(all, filters, "price-high", userMap));
  }

  /** Under "experience" the years of experience never increase down the list
      (missing counts as 0). */
  lemma SearchByExperience(all: seq<TeacherProfile>, filters: SearchFilters, userMap: map<int, User>)
    ensures var r := Search(all, filters, "experience", userMap);
            forall i, j :: 0 <= i < j < |r| ==> ExperienceKey(r[i]) >= ExperienceKey(r[j])
  {
    ExperienceIsRecognised();
    SearchIsSortedBy(Experience, all, filters, "experience", userMap);
    SortedMeansKeyOrder(Experience, Search(all, filters, "experience", userMap));
  }

  /** With no name and no subject term (absent, empty or blank) and a sort
      choice that does not reorder, the directory shows every tutor in the
      fetched order. */
  lemma NoTermsKeepsAll(all: seq<TeacherProfile>, filters: SearchFilters, sortBy: string, userMap: map<int, User>)
    requires filters.name.None? || IsBlank(filters.name.value)
    requires filters.subject.None? || IsBlank(filters.subject.value)
    requires ParseSortBy(sortBy).None?
    ensures Search(all, filters, sortBy, userMap) == all
  {
  }

  /** The name filter, spelled out: with a non-blank name term, a tutor passes
      exactly when the trimmed, lower-cased term occurs somewhere in the
      lower-cased display name. */
  lemma NameFilterIff(t: TeacherProfile, name: string, userMap: map<int, User>)
    requires !IsBlank(name)
    ensures Passes(t, SearchFilters(Some(name), None), userMap) <==>
            exists i :: OccursAt(Lower(DisplayName(t, userMap)), Lower(Trim(name)), i)
  {
    ContainsIffOccurs(Lower(DisplayName(t, userMap)), Lower(Trim(name)));
  }

  /** A tutor with no subjects never passes a subject filter; one with subjects
      passes exactly when some subject name, lower-cased, contains the term. */
  lemma SubjectFilterIff(t: TeacherProfile, subject: string, userMap: map<int, User>)
    requires !IsBlank(subject)
    ensures t.subjects.None? || t.subjects.value == [] ==>
              !Passes(t, SearchFilters(None, Some(subject)), userMap)
    ensures Passes(t, SearchFilters(None, Some(subject)), userMap) <==>
            t.subjects.Some? &&
            exists k :: 0 <= k < |t.subjects.value| &&
                        exists i :: OccursAt(Lower(t.subjects.value[k].name), Lower(Trim(subject)), i)
  {
    var term := Lower(Trim(subject));
    forall k | 0 <= k < (if t.subjects.Some? then |t.subjects.value| else 0)
      ensures Contains(Lower(t.subjects.value[k].name), term) <==>
              exists i :: OccursAt(Lower(t.subjects.value[k].name), term, i)
    {
      ContainsIffOccurs(Lower(t.subjects.value[k].name), term);
    }
  }

  /** The fallback chain of the display name: own username first, then the
      mapped user's username when it is non-empty, then "Teacher <id>" (also
      for a mapped user whose username is empty, since `""` is falsy). */
  lemma DisplayNameFallback(t: TeacherProfile, userMap: map<int, User>)
    ensures !TruthyOptStr(t.username) && t.userId != 0 && t.userId in userMap &&
            userMap[t.userId].username != "" ==>
              DisplayName(t, userMap) == userMap[t.userId].username
    ensures !TruthyOptStr(t.username) &&
            !(t.userId != 0 && t.userId in userMap && userMap[t.userId].username != "") ==>
              DisplayName(t, userMap) == "Teacher " + IntToString(t.id)
  {
  }
}
